=== FILE: README.md ===
# Library reservations and accounts, modelled in Dafny

This project models the two services at the heart of the `bibliotheque-api`
library back end:

- the **reservation service**: a reader reserves a copy of a book (the
  stock-gated `reserveBook`, or the older `createReservation` that the
  `POST /api/reservations` endpoint still calls), returns or cancels it,
  asks whether a book is available, and lists reservations by user, by
  book or all of them;
- the **user service**: registration with a security question and a
  normalised, hashed answer, activation, login with a twelve-week password
  expiry, profile and password changes by email or by id, password renewal
  guarded by a five-entry password history, the security question and
  answer check, and unsubscription.

Every operation is a pure function from a store to a `Result`: `Ok` with
the new store, or `Err` with the error the service throws. A failed call
yields no new store, so a failure changes nothing. Reservation identifiers
are positions in the reservation sequence, because the database hands out
increasing identifiers and the service never deletes a reservation.

Files:

- `results.dfy`: `Option` and `Result`.
- `javaint.dfy`: Java's 32-bit `int` and its wrapping addition, used for the
  boxed `Integer` stock counter.
- `reservations.dfy`: the reservation service, operation by operation.
- `lending.dfy`: conservation of copies (shelf stock plus copies out on an
  EN_COURS reservation) across operations and across any sequence of
  requests; where the legacy path breaks it, and a corrected path.
- `credentials.dfy`: the password digest and `toLowerCase().trim()` on
  security answers.
- `password_history.dfy`: the newest-first password history, the reuse
  check over its newest five entries, and pruning to five.
- `users.dfy`: the user service, operation by operation.
- `accounts.dfy`: properties across user-service calls: the directory
  invariant and the round trips.

Two behaviours of the code are worth stating plainly, because a reader
might expect otherwise:

- A password exactly twelve weeks old is still valid: the expiry check
  at `UserService.java:378-379` uses the strict `isAfter`, so a password
  expires only once more than twelve weeks have passed
  (`Users.ExpiryBoundary`).
- An unknown email and a wrong password fail with the same exception at
  `UserService.java:109-118`, so both are `BadCredentials` here; an
  inactive account and an expired password each have their own error.

## Model

| member | source | states |
|---|---|---|
| JavaInt.Add | src/main/java/com/example/demo/service/ReservationService.java:143-144 | Java `int` addition: the result equals the mathematical sum modulo 2^32 and is exact when the sum is in range |
| JavaInt.IncrementAtMaxWraps | src/main/java/com/example/demo/service/ReservationService.java:143-144 | incrementing a stock counter at the largest `int` wraps to the smallest one |
| Reservations.CountActive | src/main/java/com/example/demo/repository/IReservationRepository.java:20-27 | the number of EN_COURS reservations a finder selects is zero exactly when none of them is selected and in progress |
| Reservations.CountActiveAppend | src/main/java/com/example/demo/repository/IReservationRepository.java:20-27 | saving one more reservation adds one to a count exactly when it is selected and in progress |
| Reservations.CountActiveUpdate | src/main/java/com/example/demo/repository/IReservationRepository.java:20-27 | changing one reservation changes each count by the difference of the old and new reservation's contribution |
| Reservations.CountActivePairBounded | src/main/java/com/example/demo/repository/IReservationRepository.java:23-27 | the EN_COURS reservations of a user on a book are no more than those on the book |
| Reservations.ReserveBook | src/main/java/com/example/demo/service/ReservationService.java:73-122 | `reserveBook` fails with unknown user, unknown book, null or non-positive stock, a second EN_COURS reservation on the book, or three EN_COURS reservations already; each error is promised exactly when the earlier gates pass and its own fails, so a duplicate is reported before the cap; otherwise one copy leaves the shelf and one EN_COURS reservation is appended, nothing else changes |
| Reservations.ReserveBookCounts | src/main/java/com/example/demo/service/ReservationService.java:94-121 | after a reservation the book has one more copy out, the user holds at most three reservations in progress and exactly one on this book |
| Reservations.Close | src/main/java/com/example/demo/service/ReservationService.java:125-174 | returning or cancelling fails on an unknown reservation, one not in progress, an unknown book or a missing counter, in that order, and succeeds exactly otherwise; the reservation takes the closing status and its book's counter becomes the Java `int` sum of the old counter and one (exact below the largest `int`), everything else unchanged |
| Reservations.CloseAtMaxWraps | src/main/java/com/example/demo/service/ReservationService.java:143-144 | a return or cancellation on a book whose counter holds the largest `int` leaves the counter at the smallest `int` |
| Reservations.ReturnBook | src/main/java/com/example/demo/service/ReservationService.java:125-148 | fails on an unknown reservation, one not in progress, an unknown book or a missing counter, in that order, and succeeds exactly otherwise; on success the reservation is RETOURNE and its book's counter is the Java `int` sum of the old counter and one, everything else unchanged |
| Reservations.CancelReservation | src/main/java/com/example/demo/service/ReservationService.java:151-174 | fails on an unknown reservation, one not in progress, an unknown book or a missing counter, in that order, and succeeds exactly otherwise; on success the reservation is ANNULEE and its book's counter is the Java `int` sum of the old counter and one, everything else unchanged |
| Reservations.CloseCounts | src/main/java/com/example/demo/service/ReservationService.java:139-146 | closing a reservation removes it from exactly the in-progress counts that included it |
| Reservations.ClosedIsTerminal | src/main/java/com/example/demo/service/ReservationService.java:134-137 | a RETOURNE or ANNULEE reservation can be neither returned nor cancelled |
| Reservations.CloseTwiceFails | src/main/java/com/example/demo/service/ReservationService.java:160-163 | a reservation closed once cannot be closed a second time |
| Reservations.CreateReservation | src/main/java/com/example/demo/service/ReservationService.java:30-70 | the legacy path fails on unknown user or book, on an EN_COURS reservation of the user on the book, and on any other EN_COURS reservation on the book, in that order; it succeeds exactly when no reservation on the book is in progress and then appends one without touching any stock |
| Reservations.IsBookAvailable | src/main/java/com/example/demo/service/ReservationService.java:218-230 | fails exactly for unknown books; for a known book answers, and the answer is true exactly when no reservation on the book is EN_COURS, whatever the stock |
| Reservations.CreateReservationMeansAvailable | src/main/java/com/example/demo/service/ReservationService.java:45-60 | for a known user the legacy path succeeds exactly when the book is reported available |
| Reservations.IdsFrom | src/main/java/com/example/demo/repository/IReservationRepository.java:14-21 | the finder returns, in increasing order, exactly the reservations at or after a position that it selects |
| Reservations.Select | src/main/java/com/example/demo/repository/IReservationRepository.java:14-21 | a finder returns each selected reservation once, in increasing id order, and no other |
| Reservations.UserReservations | src/main/java/com/example/demo/service/ReservationService.java:177-199 | fails exactly for unknown users; for a known user lists exactly the user's reservations, or only those in progress, whose number is then the count the three-reservation gate reads |
| Reservations.SelectActiveSize | src/main/java/com/example/demo/service/ReservationService.java:102-108 | the active list of a user is as long as the in-progress count the cap is checked against |
| Reservations.SelectSizeFrom | src/main/java/com/example/demo/service/ReservationService.java:188-199 | the active list from a position on is as long as the in-progress count of that suffix |
| Reservations.BookReservations | src/main/java/com/example/demo/service/ReservationService.java:202-210 | fails exactly for unknown books; for a known book lists exactly the reservations ever made on the book, whatever their status |
| Reservations.AllReservations | src/main/java/com/example/demo/service/ReservationService.java:213-215 | every reservation, each once, in id order |
| Reservations.AllIdsAreInOrder | src/main/java/com/example/demo/service/ReservationService.java:213-215 | the unfiltered finder lists the identifiers 0 to n-1 in order |
| Reservations.AllIdsFrom | src/main/java/com/example/demo/service/ReservationService.java:213-215 | the unfiltered finder from a position lists exactly the later identifiers, in increasing order |
| Lending.ReservePreservesHolding | src/main/java/com/example/demo/service/ReservationService.java:110-121 | a reservation moves a copy from the shelf to the reader: no book's holding changes |
| Lending.ClosePreservesHolding | src/main/java/com/example/demo/service/ReservationService.java:138-147 | a return or cancellation moves a copy back to the shelf: no book's holding changes while the counter does not wrap |
| Lending.CreateReservationInflatesHolding | src/main/java/com/example/demo/service/ReservationService.java:62-69 | the legacy path puts a copy out without taking it off the shelf: the book's holding grows by one |
| Lending.LegacyReturnInflatesStock | src/main/java/com/example/demo/service/ReservationService.java:62-69 | one copy, reserved through the legacy path and returned, leaves the shelf count at two |
| Lending.LegacyPathExceedsCap | src/main/java/com/example/demo/service/ReservationService.java:30-70 | a reader holding three reservations obtains a fourth through the legacy path, which `reserveBook` refuses |
| Lending.CreateReservationConserving | src/main/java/com/example/demo/service/ReservationService.java:30-122 | the corrected legacy path keeps the legacy gates, then succeeds only as `reserveBook` does, taking the copy off the shelf; whenever the legacy path succeeds, it returns exactly what `reserveBook` returns |
| Lending.CreateConservingPreservesHolding | src/main/java/com/example/demo/service/ReservationService.java:30-122 | the corrected legacy path keeps every book's holding |
| Lending.ReserveThenCloseRestoresStock | src/main/java/com/example/demo/service/ReservationService.java:73-174 | reserving and then returning or cancelling gives every book back exactly its stock |
| Lending.SingleCopyScenario | src/main/java/com/example/demo/service/ReservationService.java:73-174 | with one copy: a first reader reserves it, a second is refused for stock, the first cancels, the second then reserves it |
| Lending.ReserveKeepsConsistent | src/main/java/com/example/demo/service/ReservationService.java:88-121 | a reservation keeps the store invariant (known books, non-negative counters, one in-progress reservation per user and book, at most three per user) and every holding |
| Lending.ReserveKeepsCaps | src/main/java/com/example/demo/service/ReservationService.java:94-108 | after a reservation every user still holds at most one in-progress reservation per book and at most three in all |
| Lending.CloseKeepsConsistent | src/main/java/com/example/demo/service/ReservationService.java:125-174 | a return or cancellation keeps the store invariant and every holding |
| Lending.StepKeepsConsistent | src/main/java/com/example/demo/service/ReservationService.java:30-174 | any request, failed or not, keeps the store invariant and every holding, with creation served by the corrected legacy path |
| Lending.RunConservesHoldings | src/main/java/com/example/demo/service/ReservationService.java:30-174 | over any sequence of requests, with creation served by the corrected legacy path, the invariant holds throughout, no counter goes negative and every book's holding is conserved |
| Credentials.MatchesExactly | src/main/java/com/example/demo/service/UserService.java:116 | a stored digest verifies its own plaintext and no other |
| Credentials.LowerChar | src/main/java/com/example/demo/service/UserService.java:298 | lower-casing a character maps an upper-case ASCII letter to its lower-case form and keeps anything else |
| Credentials.Lower | src/main/java/com/example/demo/service/UserService.java:298 | lower-casing keeps the length and maps each character |
| Credentials.TextStart | src/main/java/com/example/demo/service/UserService.java:298 | the forward scan of `String.trim` stops at the first character above U+0020, every character it passes being at most U+0020 |
| Credentials.TextEnd | src/main/java/com/example/demo/service/UserService.java:298 | the backward scan of `String.trim` stops just after the last character above U+0020, every character it passes being at most U+0020 |
| Credentials.Trim | src/main/java/com/example/demo/service/UserService.java:298 | the trimmed string is a slice of the original with only characters up to U+0020 cut off before and after it, and with no such character at either end |
| Credentials.Normalize | src/main/java/com/example/demo/service/UserService.java:57 | a normalised answer is the lower-cased answer with only blanks cut off at either end: no upper-case letter and no blank at either end remain |
| Credentials.LowerKeepsBlanks | src/main/java/com/example/demo/service/UserService.java:298 | lower-casing turns no blank into a non-blank and no non-blank into a blank, so the cut positions carry over |
| Credentials.LowerFixed | src/main/java/com/example/demo/service/UserService.java:57 | lower-casing leaves a string without upper-case letters alone |
| Credentials.TrimFixed | src/main/java/com/example/demo/service/UserService.java:298 | trimming leaves a string without blanks at its ends alone |
| Credentials.NormalizeIdempotent | src/main/java/com/example/demo/service/UserService.java:57 | normalising twice is normalising once |
| Credentials.ParisNormalizes | src/main/java/com/example/demo/service/UserService.java:57 | "Paris" and "paris " both normalise to "paris" |
| PasswordHistory.Recent | src/main/java/com/example/demo/service/UserService.java:322-328 | the newest min(5, n) entries of the history, newest first |
| PasswordHistory.CheckReuse | src/main/java/com/example/demo/service/UserService.java:330-335 | the reuse loop reports reuse exactly when the candidate verifies against one of the newest five entries |
| PasswordHistory.Push | src/main/java/com/example/demo/service/UserService.java:337-352 | saving the replaced digest makes it the newest entry, shifts the others back and keeps at most five |
| PasswordHistory.PushAll | src/main/java/com/example/demo/service/UserService.java:337-352 | after several saves the history holds min(n + saves, 5) entries |
| PasswordHistory.PushAllNewest | src/main/java/com/example/demo/service/UserService.java:337-352 | the newest entries are the digests saved last, newest first |
| PasswordHistory.PushAllRecent | src/main/java/com/example/demo/service/UserService.java:322-352 | after a run of saves the reuse check reads at most five entries, the digests saved last, newest first |
| PasswordHistory.PushAllShifts | src/main/java/com/example/demo/service/UserService.java:337-352 | each save moves an older entry one place back |
| PasswordHistory.BlockedForFourMoreSaves | src/main/java/com/example/demo/service/UserService.java:322-352 | once a password's digest is saved, reuse of it is refused through the next four saves |
| PasswordHistory.ReleasedAfterFiveSaves | src/main/java/com/example/demo/service/UserService.java:322-352 | after five more saves of other passwords the reuse check no longer sees it |
| PasswordHistory.FiveRenewalsScenario | src/main/java/com/example/demo/service/UserService.java:322-352 | after p0 to p4 are saved p1 is still blocked, and saving p5 evicts p0 |
| Users.Find | src/main/java/com/example/demo/repository/IUserRepository.java:14 | the lookup returns the first account with the email or id, and none exactly when no account has it |
| Users.RegisterUser | src/main/java/com/example/demo/service/UserService.java:32-73 | registration fails on a taken email, a missing question, a missing answer, an answer over 32 characters or a missing password (refused by the encoder), each exactly when the earlier checks pass; otherwise one INACTIF account is appended with the next id, the request's email, names and question, the hashed password, the normalised hashed answer and `createdAt` and `passwordLastUpdated` both `now`, and the activation mail is attempted |
| Users.ActivateUser | src/main/java/com/example/demo/service/UserService.java:76-102 | unknown accounts fail, accounts already ACTIF fail as already active; otherwise only that account becomes ACTIF |
| Users.AuthenticateUser | src/main/java/com/example/demo/service/UserService.java:105-131 | login succeeds, with true, exactly for a known, matching, ACTIF, unexpired account; unknown email and wrong password fail alike; a matching INACTIF account fails as inactive, a matching ACTIF expired one as expired |
| Users.IsPasswordExpired | src/main/java/com/example/demo/service/UserService.java:363-380 | fails exactly for unknown accounts; for a known account answers, and the answer is true exactly when no timestamp is set or more than twelve weeks have passed |
| Users.ExpiryBoundary | src/main/java/com/example/demo/service/UserService.java:377-379 | a password exactly twelve weeks old is still valid and expires one second later |
| Users.UpdateProfile | src/main/java/com/example/demo/service/UserService.java:163-235 | by email or id: fails exactly for unknown accounts; for a known one succeeds, an empty first or last name keeps the stored one, a non-empty one replaces it, and nothing else changes |
| Users.UpdatePassword | src/main/java/com/example/demo/service/UserService.java:186-264 | by email or id: fails on unknown account, on a wrong old password, and on an empty new one once the old one matches; otherwise only the password digest changes, the history and expiry clock do not |
| Users.RenewPassword | src/main/java/com/example/demo/service/UserService.java:302-360 | renewal fails on unknown account, wrong old password, empty new one, or reuse of one of the newest five, each exactly when the earlier checks pass; otherwise the history becomes the old digest pushed onto the old history and pruned to five, the new digest is stored and the clock restarts |
| Users.RenewPasswordStrict | src/main/java/com/example/demo/service/UserService.java:302-360 | the corrected renewal refuses the current password as reused and otherwise returns exactly what renewal returns |
| Users.GetSecurityQuestion | src/main/java/com/example/demo/service/UserService.java:267-281 | unknown accounts fail, accounts without a question fail, and it succeeds exactly otherwise, returning the stored question |
| Users.VerifySecurityAnswer | src/main/java/com/example/demo/service/UserService.java:284-299 | unknown accounts fail, accounts without an answer fail, then a missing attempt fails as the source's `toLowerCase` on null does; it succeeds exactly otherwise, with true exactly when the normalised attempt matches the stored digest |
| Users.UnsubscribeUser | src/main/java/com/example/demo/service/UserService.java:134-154 | fails exactly for unknown accounts; for a known one succeeds, exactly that account is removed and the confirmation mail is attempted |
| Accounts.FindAppended | src/main/java/com/example/demo/service/UserService.java:62-64 | an account saved under a fresh email is found at the end |
| Accounts.FindSame | src/main/java/com/example/demo/repository/IUserRepository.java:14 | two account lists that answer to a key at the same positions give the same lookup |
| Accounts.FindReplaced | src/main/java/com/example/demo/service/UserService.java:92-93 | saving an account that keeps its email and id leaves every lookup unchanged |
| Accounts.FindUnique | src/main/java/com/example/demo/entity/User.java:16-17 | with unique emails and ids, the account found is the only one with that key |
| Accounts.AppendKeepsValid | src/main/java/com/example/demo/entity/User.java:13-17 | appending an account with a fresh email and the next identifier keeps emails and ids unique |
| Accounts.RegisterKeepsValid | src/main/java/com/example/demo/service/UserService.java:32-73 | registration keeps emails and ids unique |
| Accounts.ReplaceKeepsValid | src/main/java/com/example/demo/entity/User.java:13-17 | overwriting an account without changing its email or id keeps them unique |
| Accounts.UpdatesKeepValid | src/main/java/com/example/demo/service/UserService.java:76-360 | activation, password changes, renewal and profile updates keep emails and ids unique |
| Accounts.UnsubscribeRemovesAccount | src/main/java/com/example/demo/service/UserService.java:134-154 | unsubscription keeps uniqueness and no account answers to the email afterwards |
| Accounts.MailFailureIsSwallowed | src/main/java/com/example/demo/service/UserService.java:66-72 | a mail that cannot be sent changes neither the outcome nor the stored accounts of registration, activation or unsubscription |
| Accounts.RegisteredIsFound | src/main/java/com/example/demo/service/UserService.java:62-64 | a freshly registered account is found under its email |
| Accounts.RegisterThenActivate | src/main/java/com/example/demo/service/UserService.java:32-102 | activating a freshly registered account succeeds, keeps it where registration put it and changes only its status |
| Accounts.RegisterThenVerifyAnswer | src/main/java/com/example/demo/service/UserService.java:32-73 | after registering, the registered question is returned and an attempt at the answer is accepted exactly when it normalises like the registered answer; a missing attempt fails |
| Accounts.RegisterActivateLogin | src/main/java/com/example/demo/service/UserService.java:32-131 | a new account registered with answer "Paris" and activated logs in at once and accepts "paris " |
| Accounts.LoginAgreesWithExpiry | src/main/java/com/example/demo/service/UserService.java:125-130 | for an active account and the right password, login succeeds exactly when the expiry query answers false, and fails as expired exactly when it answers true |
| Accounts.UpdatePasswordThenLogin | src/main/java/com/example/demo/service/UserService.java:186-212 | after a password change the new password logs in and a different old one is refused |
| Accounts.RenewThenLogin | src/main/java/com/example/demo/service/UserService.java:354-359 | after a renewal an active account logs in with the new password and is not expired |
| Accounts.RenewCannotRevert | src/main/java/com/example/demo/service/UserService.java:330-341 | renewing straight back to the password just replaced is refused as reuse |
| Accounts.RenewAcceptsCurrentPassword | src/main/java/com/example/demo/service/UserService.java:302-360 | renewal accepts the current password as the new one when it is not in the history: the password stays and the clock restarts |
| Accounts.StrictRenewRefusesCurrentPassword | src/main/java/com/example/demo/service/UserService.java:302-360 | the corrected renewal refuses the current password |
| Accounts.RenewToSamePasswordExample | src/main/java/com/example/demo/service/UserService.java:302-360 | an expired account renews to its very same password and can log in again; the corrected renewal refuses |
| Accounts.RenewStep | src/main/java/com/example/demo/service/UserService.java:337-359 | one renewal keeps the account where it was, puts it on the new password and pushes the digest of the replaced password onto its history |
| Accounts.RenewalsPrefix | src/main/java/com/example/demo/service/UserService.java:302-360 | successive renewals without their last call are successive renewals too |
| Accounts.RenewalsLastStep | src/main/java/com/example/demo/service/UserService.java:337-359 | the last of successive renewals puts the account on the last password and pushes the one it replaced |
| Accounts.RenewalsHistory | src/main/java/com/example/demo/service/UserService.java:302-360 | after successive renewals the account is where it was, holds the last password, and its history is the old one with every replaced password pushed in turn |
| Accounts.SavedSplit | src/main/java/com/example/demo/service/UserService.java:337-352 | the history after a run's saves is the history after its shorter prefix's saves with the password replaced last pushed on top |
| Accounts.SavedRecent | src/main/java/com/example/demo/service/UserService.java:322-352 | after a run of saves the reuse check sees at most five entries, the password saved j saves before the last at position j |
| Accounts.RenewalsStillSee | src/main/java/com/example/demo/service/UserService.java:322-335 | after successive renewals the reuse check still sees each of the last five passwords replaced |
| Accounts.RenewalsBlockReuse | src/main/java/com/example/demo/service/UserService.java:322-360 | after successive renewals, renewing to any of the last five passwords replaced is refused as reuse |
| Accounts.RenewalsRelease | src/main/java/com/example/demo/service/UserService.java:322-360 | after five further renewals to other passwords, renewing to a password is accepted again |

## Left out

- HTTP controllers, request parsing and response shapes: they only call
  the services and map exceptions to status codes.
- The mail service: sending is an outside effect, so each mail-sending
  operation takes a `delivered` flag and returns the mails it sent.
- BCrypt: salting and cost are not modelled; the digest is an idealised
  collision-free hash, so a digest verifies exactly its own plaintext.
- Unicode case mapping and locale: `toLowerCase` is modelled on ASCII
  letters only. Lengths count `char`s, as Java counts UTF-16 units only
  for text inside the basic plane.
- Clocks: `LocalDateTime.now()` becomes an `Instant` parameter counted in
  seconds. An account's `createdAt` and `passwordLastUpdated` are
  tracked (only the latter is read, by expiry); reservation dates are not
  tracked.
- Null strings are modelled as absent optional fields where the source
  checks them (`securityQuestion`, `securityAnswer`) or dereferences them
  (the registration password, handed to the encoder at
  `UserService.java:53`, and the attempted answer, lower-cased at
  `UserService.java:298`), where the model fails with `NullPassword` or
  `NullAnswer`. The names given to a profile update and the new passwords
  of a password change or renewal are plain strings, since the source
  treats null there like the empty string (`UserService.java:174-177`,
  `:226-229`, `:202`, `:254`, `:318`).
- Users.RegisterUser: a registration request without an email, first name
  or last name is not modelled; the service does not check these fields,
  so the save at `UserService.java:64` fails on the columns declared not
  null (`User.java:16`, `:22`, `:25`) and no account is registered. The
  model's `Candidate` carries these fields as plain strings, so every
  registration has them.
- Users.AuthenticateUser: a null login or old password reaches the
  encoder's `matches`, which is outside the model; such a password is
  modelled as the empty string, which matches no stored digest unless the
  account's password is itself empty.
- `getUserByEmail`: a plain lookup, covered by `Users.Find`.
- Transactions and concurrency: each call is atomic in the model; the
  source has no transaction boundary, so a failure half-way through a
  call (the null stock counter on return) is modelled as saving nothing.
- Foreign keys: the database may refuse to delete an account that still
  has reservations or history entries; the model deletes the account and
  keeps its history, as the service code does.
- Books, authors and the security-question catalogue are not part of this
  model; a book is only its stock counter.
- Lending.ClosePreservesHolding: requires the shelf count to be below the
  largest `int`, because at that point the source's increment wraps.
- PasswordHistory.Push: the history is kept newest first in save order,
  which matches the source's ordering by change date only while the clock
  moves forward.
- Lending.CloseKeepsConsistent: relies on the invariant's bound that a
  book's holding never exceeds the largest `int`, so inside the invariant
  the increment at `ReservationService.java:143-144` never wraps; the
  wrapping case itself is `Reservations.CloseAtMaxWraps`.
- Lending.StepKeepsConsistent: a `Create` request is served by the
  corrected `Lending.CreateReservationConserving`, not by the source's
  `createReservation`, which does not conserve copies (see Findings).
- Lending.RunConservesHoldings: the same substitution as
  `Lending.StepKeepsConsistent`; with the source's `createReservation` the
  holdings grow (`Lending.CreateReservationInflatesHolding`).
- Reservations.Select: the repository finders declare no ordering, so the
  increasing-id order of every list is the model's choice; the contents
  are what the model promises.
- Users.RegisterUser: the request body binds a whole `User`
  (`UserController.java:24-27`), but a `Candidate` carries only the fields
  registration reads; an id, status or timestamp supplied by the client
  is not modelled, and the account gets the next generated id.
- Reservations.ReturnBook: the two error messages for a reservation that
  is not in progress differ between return and cancel; both are
  `NotInProgress` here.

## Findings

| source | as written | input that shows it | evidently intended | confidence | as-written member | corrected member |
|---|---|---|---|---|---|---|
| src/main/java/com/example/demo/service/ReservationService.java:30-70 | `createReservation`, the path the reservation endpoint calls, neither checks nor decrements the stock and skips the three-reservation cap, while return and cancel add a copy back | one copy on the shelf; reserve it through this path, then return it: the shelf count becomes 2; a reader with three reservations gets a fourth | a reservation takes its copy off the shelf and respects the cap, as `reserveBook` does | medium, not executed | Lending.LegacyReturnInflatesStock | Lending.CreateConservingPreservesHolding |
| src/main/java/com/example/demo/service/UserService.java:302-360 | `renewPassword` checks only the history, which holds earlier passwords, not the current one | an expired account renews from "secret" to "secret" with an empty history: accepted, and the expiry clock restarts | renewal must pick a password different from the current one, as the reuse rule exists to force a change | medium, not executed | Accounts.RenewAcceptsCurrentPassword | Accounts.StrictRenewRefusesCurrentPassword |

=== FILE: accounts.dfy ===
/** Properties of the user service across calls: the directory invariant,
    lookups after an update, and the round trips a user goes through
    (register, activate, log in; change or renew a password, log in again). */
module Accounts {
  import opened Results
  import opened Identifiers
  import opened Credentials
  import opened PasswordHistory
  import opened Users

  /** The directory invariant: emails and identifiers are unique (the
      store's unique constraint and identity column), and every identifier
      is below the next one to be handed out. */
  ghost predicate Valid(d: Directory) {
    && (forall i, j :: 0 <= i < j < |d.users| ==> d.users[i].email != d.users[j].email)
    && (forall i, j :: 0 <= i < j < |d.users| ==> d.users[i].id != d.users[j].id)
    && (forall i :: 0 <= i < |d.users| ==> d.users[i].id < d.nextId)
  }

  // ---------------------------------------------------------------------
  // Lookups
  // ---------------------------------------------------------------------

  /** An account added under a fresh email is found at the end. */
  lemma {:induction false} FindAppended(users: seq<User>, u: User, k: Key)
    requires Find(users, k).None? && HasKey(u, k)
    ensures Find(users + [u], k) == Some(|users|)
  {
    if users != [] {
      assert (users + [u])[1..] == users[1..] + [u];
      FindAppended(users[1..], u, k);
    }
  }

  /** Two account lists that answer to a key at the same positions give
      the same lookup. */
  lemma {:induction false} FindSame(a: seq<User>, b: seq<User>, k: Key)
    requires |a| == |b|
    requires forall j :: 0 <= j < |a| ==> (HasKey(a[j], k) <==> HasKey(b[j], k))
    ensures Find(a, k) == Find(b, k)
  {
    if a != [] && !HasKey(a[0], k) {
      FindSame(a[1..], b[1..], k);
    }
  }

  /** Overwriting an account with one that answers to the same keys leaves
      every lookup where it was. */
  lemma FindReplaced(users: seq<User>, i: nat, u: User, k: Key)
    requires i < |users|
    requires HasKey(u, k) <==> HasKey(users[i], k)
    ensures Find(users[i := u], k) == Find(users, k)
  {
    FindSame(users[i := u], users, k);
  }

  /** In a valid directory the account found is the only one with that key. */
  lemma FindUnique(d: Directory, k: Key, j: nat)
    requires Valid(d)
    requires Find(d.users, k).Some?
    requires j < |d.users| && HasKey(d.users[j], k)
    ensures Find(d.users, k) == Some(j)
  {
    var i := Find(d.users, k).value;
    if i < j {
      assert false;
    }
  }

  // ---------------------------------------------------------------------
  // The invariant is kept
  // ---------------------------------------------------------------------

  /** Appending an account with a fresh email and the next identifier keeps
      the directory valid. */
  lemma AppendKeepsValid(d: Directory, t: Directory, u: User)
    requires Valid(d)
    requires t.users == d.users + [u] && u.id == d.nextId < t.nextId
    requires forall i :: 0 <= i < |d.users| ==> d.users[i].email != u.email
    ensures Valid(t)
  {
    assert forall i :: 0 <= i < |d.users| ==> t.users[i] == d.users[i];
  }

  /** Registration keeps emails and identifiers unique. */
  lemma RegisterKeepsValid(d: Directory, c: Candidate, now: Instant, delivered: bool)
    requires Valid(d)
    requires RegisterUser(d, c, now, delivered).Ok?
    ensures Valid(RegisterUser(d, c, now, delivered).value.dir)
  {
    var t := RegisterUser(d, c, now, delivered).value.dir;
    var n := |d.users|;
    var u := t.users[n];
    assert t.users == d.users + [u];
    forall i | 0 <= i < n
      ensures d.users[i].email != u.email
    {
      assert !HasKey(d.users[i], ByEmail(c.email));
    }
    AppendKeepsValid(d, t, u);
  }

  /** Overwriting an account without touching its email or identifier keeps
      the directory valid. */
  lemma ReplaceKeepsValid(d: Directory, t: Directory, i: nat)
    requires Valid(d)
    requires i < |d.users| && |t.users| == |d.users| && t.nextId == d.nextId
    requires forall j :: 0 <= j < |d.users| && j != i ==> t.users[j] == d.users[j]
    requires t.users[i].email == d.users[i].email && t.users[i].id == d.users[i].id
    ensures Valid(t)
  {
  }

  /** Activation, password changes, renewal and profile updates keep the
      directory valid. */
  lemma UpdatesKeepValid(d: Directory, email: Email, k: Key, current: string, next: string,
                         first: string, last: string, now: Instant, delivered: bool)
    requires Valid(d)
    ensures ActivateUser(d, email, delivered).Ok? ==> Valid(ActivateUser(d, email, delivered).value.dir)
    ensures UpdatePassword(d, k, current, next).Ok? ==> Valid(UpdatePassword(d, k, current, next).value)
    ensures RenewPassword(d, email, current, next, now).Ok? ==> Valid(RenewPassword(d, email, current, next, now).value)
    ensures UpdateProfile(d, k, first, last).Ok? ==> Valid(UpdateProfile(d, k, first, last).value)
  {
    if ActivateUser(d, email, delivered).Ok? {
      ReplaceKeepsValid(d, ActivateUser(d, email, delivered).value.dir, Find(d.users, ByEmail(email)).value);
    }
    if UpdatePassword(d, k, current, next).Ok? {
      ReplaceKeepsValid(d, UpdatePassword(d, k, current, next).value, Find(d.users, k).value);
    }
    if RenewPassword(d, email, current, next, now).Ok? {
      ReplaceKeepsValid(d, RenewPassword(d, email, current, next, now).value, Find(d.users, ByEmail(email)).value);
    }
    if UpdateProfile(d, k, first, last).Ok? {
      ReplaceKeepsValid(d, UpdateProfile(d, k, first, last).value, Find(d.users, k).value);
    }
  }

  /** Unsubscription keeps the directory valid, and afterwards no account
      answers to the email. */
  lemma UnsubscribeRemovesAccount(d: Directory, email: Email, delivered: bool)
    requires Valid(d)
    requires UnsubscribeUser(d, email, delivered).Ok?
    ensures Valid(UnsubscribeUser(d, email, delivered).value.dir)
    ensures Find(UnsubscribeUser(d, email, delivered).value.dir.users, ByEmail(email)).None?
  {
    var i := Find(d.users, ByEmail(email)).value;
    var t := UnsubscribeUser(d, email, delivered).value.dir;
    assert forall j :: 0 <= j < i ==> t.users[j] == d.users[j];
    assert forall j :: i <= j < |t.users| ==> t.users[j] == d.users[j + 1];
  }

  /** A mail that cannot be delivered changes nothing but the outbox: the
      outcome and the directory are the same either way. */
  lemma MailFailureIsSwallowed(d: Directory, c: Candidate, email: Email, now: Instant)
    ensures RegisterUser(d, c, now, true).Ok? <==> RegisterUser(d, c, now, false).Ok?
    ensures RegisterUser(d, c, now, true).Ok? ==>
              RegisterUser(d, c, now, true).value.dir == RegisterUser(d, c, now, false).value.dir
    ensures ActivateUser(d, email, true).Ok? <==> ActivateUser(d, email, false).Ok?
    ensures ActivateUser(d, email, true).Ok? ==>
              ActivateUser(d, email, true).value.dir == ActivateUser(d, email, false).value.dir
    ensures UnsubscribeUser(d, email, true).Ok? <==> UnsubscribeUser(d, email, false).Ok?
    ensures UnsubscribeUser(d, email, true).Ok? ==>
              UnsubscribeUser(d, email, true).value.dir == UnsubscribeUser(d, email, false).value.dir
  {
  }

  // ---------------------------------------------------------------------
  // Round trips
  // ---------------------------------------------------------------------

  /** A freshly registered account is found under its email, at the end. */
  lemma RegisteredIsFound(d: Directory, c: Candidate, now: Instant, delivered: bool)
    requires RegisterUser(d, c, now, delivered).Ok?
    ensures Find(RegisterUser(d, c, now, delivered).value.dir.users, ByEmail(c.email)) == Some(|d.users|)
  {
    var t := RegisterUser(d, c, now, delivered).value.dir;
    var n := |d.users|;
    assert t.users == d.users + [t.users[n]];
    FindAppended(d.users, t.users[n], ByEmail(c.email));
  }

  /** After registering, the registered question is returned, and an
      attempt at the security answer is accepted exactly when it normalises
      to the same text as the registered answer. */
  lemma RegisterThenVerifyAnswer(d: Directory, c: Candidate, now: Instant, delivered: bool)
    requires RegisterUser(d, c, now, delivered).Ok?
    ensures forall attempt :: VerifySecurityAnswer(RegisterUser(d, c, now, delivered).value.dir, c.email, Some(attempt))
                              == Ok(Normalize(attempt) == Normalize(c.securityAnswer.value))
    ensures VerifySecurityAnswer(RegisterUser(d, c, now, delivered).value.dir, c.email, None) == Err(NullAnswer)
    ensures GetSecurityQuestion(RegisterUser(d, c, now, delivered).value.dir, c.email) == Ok(c.securityQuestion.value)
  {
    var t := RegisterUser(d, c, now, delivered).value.dir;
    var n := |d.users|;
    RegisteredIsFound(d, c, now, delivered);
    assert t.users[n].securityAnswer == Some(Hash(Normalize(c.securityAnswer.value)));
    assert t.users[n].securityQuestion == c.securityQuestion;
  }

  /** The registration walk-through: a new account registered with the
      answer "Paris", then activated, logs in with its password at once and
      answers "paris " to its security question. */
  lemma RegisterActivateLogin(d: Directory, c: Candidate, now: Instant)
    requires Find(d.users, ByEmail(c.email)).None?
    requires Given(c.securityQuestion)
    requires c.securityAnswer == Some("Paris")
    requires c.password.Some?
    ensures var registered := RegisterUser(d, c, now, false);
            && registered.Ok?
            && ActivateUser(registered.value.dir, c.email, false).Ok?
            && var active := ActivateUser(registered.value.dir, c.email, false).value.dir;
               && AuthenticateUser(active, c.email, c.password.value, now) == Ok(true)
               && VerifySecurityAnswer(active, c.email, Some("paris ")) == Ok(true)
  {
    var t := RegisterUser(d, c, now, false).value.dir;
    var n := |d.users|;
    RegisterThenActivate(d, c, now);
    var active := ActivateUser(t, c.email, false).value.dir;
    var u := active.users[n];
    assert AuthenticateUser(active, c.email, c.password.value, now) == Ok(true) by {
      assert u.status == Actif && Matches(c.password.value, u.password) && !Expired(u, now);
    }
    assert VerifySecurityAnswer(active, c.email, Some("paris ")) == Ok(true) by {
      ParisNormalizes();
      assert u.securityAnswer == Some(Hash(Normalize("paris ")));
    }
  }

  /** Activating a freshly registered account succeeds and changes only its
      status; the account stays where registration put it. */
  lemma RegisterThenActivate(d: Directory, c: Candidate, now: Instant)
    requires RegisterUser(d, c, now, false).Ok?
    ensures var t := RegisterUser(d, c, now, false).value.dir;
            && ActivateUser(t, c.email, false).Ok?
            && var active := ActivateUser(t, c.email, false).value.dir;
               && Find(active.users, ByEmail(c.email)) == Some(|d.users|)
               && active.users[|d.users|] == t.users[|d.users|].(status := Actif)
  {
    var t := RegisterUser(d, c, now, false).value.dir;
    var n := |d.users|;
    RegisteredIsFound(d, c, now, false);
    var active := ActivateUser(t, c.email, false).value.dir;
    FindReplaced(t.users, n, active.users[n], ByEmail(c.email));
    assert active.users == t.users[n := active.users[n]];
  }

  /** For an active account and the right password, login succeeds exactly
      when the expiry query says the password has not expired, and fails
      with `PasswordExpired` otherwise. */
  lemma LoginAgreesWithExpiry(d: Directory, email: Email, password: string, now: Instant)
    requires Find(d.users, ByEmail(email)).Some?
    requires Matches(password, d.users[Find(d.users, ByEmail(email)).value].password)
    requires d.users[Find(d.users, ByEmail(email)).value].status == Actif
    ensures AuthenticateUser(d, email, password, now) == Ok(true) <==> IsPasswordExpired(d, email, now) == Ok(false)
    ensures AuthenticateUser(d, email, password, now) == Err(PasswordExpired) <==> IsPasswordExpired(d, email, now) == Ok(true)
  {
  }

  /** After a plain password change the new password logs in and the old
      one no longer does; status and expiry are untouched. */
  lemma UpdatePasswordThenLogin(d: Directory, email: Email, current: string, next: string, now: Instant)
    requires AuthenticateUser(d, email, current, now) == Ok(true)
    requires UpdatePassword(d, ByEmail(email), current, next).Ok?
    ensures var t := UpdatePassword(d, ByEmail(email), current, next).value;
            && AuthenticateUser(t, email, next, now) == Ok(true)
            && (current != next ==> AuthenticateUser(t, email, current, now) == Err(BadCredentials))
  {
    var i := Find(d.users, ByEmail(email)).value;
    var t := UpdatePassword(d, ByEmail(email), current, next).value;
    FindReplaced(d.users, i, t.users[i], ByEmail(email));
    assert t.users == d.users[i := t.users[i]];
  }

  /** After a renewal an active account logs in with the new password at
      the same instant: the expiry clock has restarted. */
  lemma RenewThenLogin(d: Directory, email: Email, current: string, next: string, now: Instant)
    requires RenewPassword(d, email, current, next, now).Ok?
    requires d.users[Find(d.users, ByEmail(email)).value].status == Actif
    ensures var t := RenewPassword(d, email, current, next, now).value;
            && AuthenticateUser(t, email, next, now) == Ok(true)
            && IsPasswordExpired(t, email, now) == Ok(false)
  {
    var i := Find(d.users, ByEmail(email)).value;
    var t := RenewPassword(d, email, current, next, now).value;
    FindReplaced(d.users, i, t.users[i], ByEmail(email));
    assert t.users == d.users[i := t.users[i]];
  }

  /** Renewing straight back to the password just replaced is refused: the
      replaced digest is the newest history entry. */
  lemma RenewCannotRevert(d: Directory, email: Email, p: string, q: string, now: Instant, later: Instant)
    requires RenewPassword(d, email, p, q, now).Ok?
    requires p != []
    ensures RenewPassword(RenewPassword(d, email, p, q, now).value, email, q, p, later) == Err(PasswordReused)
  {
    var i := Find(d.users, ByEmail(email)).value;
    var t := RenewPassword(d, email, p, q, now).value;
    FindReplaced(d.users, i, t.users[i], ByEmail(email));
    assert t.users == d.users[i := t.users[i]];
    var h := History(t, t.users[i].id);
    assert Recent(h)[0] == Hash(p);
  }

  /** The source's renewal accepts the current password as the new one
      whenever it is not also in the history: the password stays the same
      while the expiry clock restarts. */
  lemma RenewAcceptsCurrentPassword(d: Directory, email: Email, p: string, now: Instant)
    requires Find(d.users, ByEmail(email)).Some?
    requires Matches(p, d.users[Find(d.users, ByEmail(email)).value].password)
    requires p != []
    requires !Reused(History(d, d.users[Find(d.users, ByEmail(email)).value].id), p)
    ensures var i := Find(d.users, ByEmail(email)).value;
            var r := RenewPassword(d, email, p, p, now);
            && r.Ok?
            && r.value.users[i].password == d.users[i].password
            && r.value.users[i].passwordLastUpdated == Some(now)
  {
  }

  /** The corrected renewal refuses the current password. */
  lemma StrictRenewRefusesCurrentPassword(d: Directory, email: Email, p: string, now: Instant)
    requires Find(d.users, ByEmail(email)).Some?
    requires Matches(p, d.users[Find(d.users, ByEmail(email)).value].password)
    requires p != []
    ensures RenewPasswordStrict(d, email, p, p, now) == Err(PasswordReused)
  {
  }

  /** A first renewal from an empty history, to the very same password, is
      accepted by the source. */
  lemma RenewToSamePasswordExample()
    ensures var u := User(1, "a@example.com", Hash("secret"), "Ada", "L", Actif, 0, None, None, Some(0));
            var d := Directory([u], map[], 2);
            var r := RenewPassword(d, "a@example.com", "secret", "secret", PasswordMaxAge + 1);
            && r.Ok?
            && r.value.users[0].password == Hash("secret")
            && AuthenticateUser(d, "a@example.com", "secret", PasswordMaxAge + 1) == Err(PasswordExpired)
            && AuthenticateUser(r.value, "a@example.com", "secret", PasswordMaxAge + 1) == Ok(true)
            && RenewPasswordStrict(d, "a@example.com", "secret", "secret", PasswordMaxAge + 1) == Err(PasswordReused)
  {
    var u := User(1, "a@example.com", Hash("secret"), "Ada", "L", Actif, 0, None, None, Some(0));
    var d := Directory([u], map[], 2);
    assert Find(d.users, ByEmail("a@example.com")) == Some(0);
    var r := RenewPassword(d, "a@example.com", "secret", "secret", PasswordMaxAge + 1);
    assert !Reused(History(d, 1), "secret");
    assert r.Ok?;
    FindReplaced(d.users, 0, r.value.users[0], ByEmail("a@example.com"));
  }

  // ---------------------------------------------------------------------
  // Successive renewals
  // ---------------------------------------------------------------------

  /** The `k`-th of successive renewals of the password of `email`: at
      `nows[k]`, renewing `ds[k]` from `ps[k]` to `ps[k + 1]` succeeds with
      `ds[k + 1]`. */
  predicate RenewedAt(ds: seq<Directory>, email: Email, ps: seq<string>, nows: seq<Instant>, k: nat) {
    && k < |nows| && k + 1 < |ds| && k + 1 < |ps|
    && RenewPassword(ds[k], email, ps[k], ps[k + 1], nows[k]) == Ok(ds[k + 1])
  }

  /** `ds` records successive successful renewals, one per entry of `nows`. */
  predicate Renewals(ds: seq<Directory>, email: Email, ps: seq<string>, nows: seq<Instant>) {
    && |ds| == |ps| == |nows| + 1
    && forall k: nat :: k < |nows| ==> RenewedAt(ds, email, ps, nows, k)
  }

  /** The digests of `ps`, position by position. */
  function Digests(ps: seq<string>): (r: seq<Digest>)
    ensures |r| == |ps|
    ensures forall k :: 0 <= k < |ps| ==> r[k] == Hash(ps[k])
  {
    seq(|ps|, k requires 0 <= k < |ps| => Hash(ps[k]))
  }

  /** Successive renewals keep the account where it was, leave it on the
      last password, and have saved every password they replaced into the
      history, the last one replaced newest. */
  lemma {:induction false} RenewalsHistory(ds: seq<Directory>, email: Email, ps: seq<string>, nows: seq<Instant>, i: nat)
    requires Renewals(ds, email, ps, nows)
    requires Find(ds[0].users, ByEmail(email)) == Some(i)
    ensures var last := ds[|ds| - 1];
            && Find(last.users, ByEmail(email)) == Some(i)
            && last.users[i].id == ds[0].users[i].id
            && (|ps| >= 2 ==> Matches(ps[|ps| - 1], last.users[i].password))
            && History(last, ds[0].users[i].id) == PushAll(History(ds[0], ds[0].users[i].id), Digests(ps[..|ps| - 1]))
    decreases |ds|
  {
    if |ds| >= 2 {
      var n := |ds|;
      RenewalsPrefix(ds, email, ps, nows);
      RenewalsHistory(ds[..n - 1], email, ps[..n - 1], nows[..n - 2], i);
      assert ps[..n - 1][..n - 2] == ps[..n - 2];
      RenewalsLastStep(ds, email, ps, nows, i);
      SavedSplit(History(ds[0], ds[0].users[i].id), ps);
    } else {
      assert Digests(ps[..|ps| - 1]) == [];
    }
  }

  /** Successive renewals without their last call are successive renewals
      too. */
  lemma RenewalsPrefix(ds: seq<Directory>, email: Email, ps: seq<string>, nows: seq<Instant>)
    requires Renewals(ds, email, ps, nows)
    requires |ds| >= 2
    ensures Renewals(ds[..|ds| - 1], email, ps[..|ds| - 1], nows[..|ds| - 2])
  {
    var n := |ds|;
    var before, passwords, times := ds[..n - 1], ps[..n - 1], nows[..n - 2];
    forall k: nat | k < n - 2
      ensures RenewedAt(before, email, passwords, times, k)
    {
      assert RenewedAt(ds, email, ps, nows, k);
    }
  }

  /** The last of successive renewals keeps the account where it was, puts
      it on the last password and saves the one it replaced as newest. */
  lemma RenewalsLastStep(ds: seq<Directory>, email: Email, ps: seq<string>, nows: seq<Instant>, i: nat)
    requires Renewals(ds, email, ps, nows)
    requires |ds| >= 2
    requires Find(ds[|ds| - 2].users, ByEmail(email)) == Some(i)
    ensures var d, t := ds[|ds| - 2], ds[|ds| - 1];
            && Find(t.users, ByEmail(email)) == Some(i)
            && t.users[i].id == d.users[i].id
            && Matches(ps[|ps| - 1], t.users[i].password)
            && History(t, d.users[i].id) == Push(History(d, d.users[i].id), Hash(ps[|ps| - 2]))
  {
    var n := |ds|;
    assert RenewedAt(ds, email, ps, nows, n - 2);
    RenewStep(ds[n - 2], email, ps[n - 2], ps[n - 1], nows[n - 2], i);
  }

  /** One renewal: the account stays where it was, takes the new password,
      and its history gains the replaced password as newest entry. */
  lemma RenewStep(d: Directory, email: Email, current: string, next: string, now: Instant, i: nat)
    requires Find(d.users, ByEmail(email)) == Some(i)
    requires RenewPassword(d, email, current, next, now).Ok?
    ensures var t := RenewPassword(d, email, current, next, now).value;
            && Find(t.users, ByEmail(email)) == Some(i)
            && t.users[i].id == d.users[i].id
            && Matches(next, t.users[i].password)
            && History(t, d.users[i].id) == Push(History(d, d.users[i].id), Hash(current))
  {
    var t := RenewPassword(d, email, current, next, now).value;
    FindReplaced(d.users, i, t.users[i], ByEmail(email));
    assert t.users == d.users[i := t.users[i]];
  }

  /** The passwords a run of renewals saved are those its shorter prefix
      saved, followed by the one it replaced last. */
  lemma SavedSplit(h: seq<Digest>, ps: seq<string>)
    requires |ps| >= 2
    ensures PushAll(h, Digests(ps[..|ps| - 1])) == Push(PushAll(h, Digests(ps[..|ps| - 2])), Hash(ps[|ps| - 2]))
  {
    var saved := Digests(ps[..|ps| - 1]);
    assert saved[..|saved| - 1] == Digests(ps[..|ps| - 2]);
  }

  /** What the reuse check reads once the passwords `ps` but the last have
      been saved in turn: at most five entries, the `j`-th of them the
      password saved `j` saves before the last. */
  lemma {:induction false} SavedRecent(h: seq<Digest>, ps: seq<string>, j: nat)
    requires ps != []
    ensures var r := Recent(PushAll(h, Digests(ps[..|ps| - 1])));
            && |r| <= HistoryLimit
            && (j < HistoryLimit && j + 2 <= |ps| ==> j < |r| && r[j] == Hash(ps[|ps| - 2 - j]))
  {
    var saved := Digests(ps[..|ps| - 1]);
    PushAllRecent(h, saved);
    if j < HistoryLimit && j + 2 <= |ps| {
      assert saved[|saved| - 1 - j] == Hash(ps[|ps| - 2 - j]);
    }
  }

  /** After successive renewals the reuse check still sees the password
      replaced `j` renewals before the last, for each of the last five. */
  lemma RenewalsStillSee(ds: seq<Directory>, email: Email, ps: seq<string>, nows: seq<Instant>, i: nat, j: nat)
    requires Renewals(ds, email, ps, nows)
    requires Find(ds[0].users, ByEmail(email)) == Some(i)
    requires j < HistoryLimit && j + 2 <= |ps|
    ensures var last := ds[|ds| - 1];
            && Find(last.users, ByEmail(email)) == Some(i)
            && Matches(ps[|ps| - 1], last.users[i].password)
            && Reused(History(last, last.users[i].id), ps[|ps| - 2 - j])
  {
    RenewalsHistory(ds, email, ps, nows, i);
    SavedRecent(History(ds[0], ds[0].users[i].id), ps, j);
    var last := ds[|ds| - 1];
    assert Matches(ps[|ps| - 2 - j], Recent(History(last, last.users[i].id))[j]);
  }

  /** Each of the last five passwords replaced by successive renewals is
      refused as the next one. */
  lemma RenewalsBlockReuse(ds: seq<Directory>, email: Email, ps: seq<string>, nows: seq<Instant>, j: nat, later: Instant)
    requires Renewals(ds, email, ps, nows)
    requires Find(ds[0].users, ByEmail(email)).Some?
    requires j < HistoryLimit && j + 2 <= |ps|
    requires ps[|ps| - 2 - j] != []
    ensures RenewPassword(ds[|ds| - 1], email, ps[|ps| - 1], ps[|ps| - 2 - j], later) == Err(PasswordReused)
  {
    RenewalsStillSee(ds, email, ps, nows, Find(ds[0].users, ByEmail(email)).value, j);
  }

  /** After five further renewals to other passwords, a password is accepted
      again: it has left the part of the history the check reads. */
  lemma RenewalsRelease(ds: seq<Directory>, email: Email, ps: seq<string>, nows: seq<Instant>, p: string, later: Instant)
    requires Renewals(ds, email, ps, nows)
    requires Find(ds[0].users, ByEmail(email)).Some?
    requires |ps| >= HistoryLimit + 1
    requires forall k :: |ps| - 1 - HistoryLimit <= k < |ps| - 1 ==> ps[k] != p
    requires p != []
    ensures RenewPassword(ds[|ds| - 1], email, ps[|ps| - 1], p, later).Ok?
  {
    var i := Find(ds[0].users, ByEmail(email)).value;
    var last := ds[|ds| - 1];
    assert Find(last.users, ByEmail(email)) == Some(i)
           && Matches(ps[|ps| - 1], last.users[i].password)
           && !Reused(History(last, last.users[i].id), p) by {
      RenewalsHistory(ds, email, ps, nows, i);
      var h := History(ds[0], ds[0].users[i].id);
      forall j | 0 <= j < |Recent(History(last, last.users[i].id))|
        ensures !Matches(p, Recent(History(last, last.users[i].id))[j])
      {
        SavedRecent(h, ps, j);
        MatchesExactly(p, ps[|ps| - 2 - j]);
      }
    }
  }
}

=== FILE: credentials.dfy ===
/** The credential primitives the user service relies on: a one-way digest
    with its verification, and the normalisation applied to security
    answers (`toLowerCase().trim()`). */
module Credentials {

  /** A stored digest. The password encoder is kept abstract: the model
      treats it as collision-free, so a digest verifies exactly the one
      plaintext it was made from. Salting is not modelled. */
  datatype Digest = Digest(source: string)

  function Hash(p: string): (d: Digest) {
    Digest(p)
  }

  /** The encoder's `matches(plaintext, digest)`. */
  predicate Matches(p: string, d: Digest) {
    d == Hash(p)
  }

  /** A digest verifies its own plaintext and no other. */
  lemma MatchesExactly(p: string, q: string)
    ensures Matches(p, Hash(q)) <==> p == q
  {
  }

  // ---------------------------------------------------------------------
  // Normalising security answers
  // ---------------------------------------------------------------------

  predicate IsUpper(c: char) {
    'A' <= c <= 'Z'
  }

  /** The characters `String.trim` removes: every code point up to U+0020. */
  predicate IsBlank(c: char) {
    c <= ' '
  }

  function LowerChar(c: char): (r: char)
    ensures !IsUpper(r)
    ensures IsUpper(c) ==> r as int == c as int + 32
    ensures !IsUpper(c) ==> r == c
  {
    if IsUpper(c) then (c as int + ('a' as int - 'A' as int)) as char else c
  }

  /** Lower-cases the ASCII letters of `s` and keeps every other character. */
  function Lower(s: string): (r: string)
    ensures |r| == |s|
    ensures forall i :: 0 <= i < |s| ==> r[i] == LowerChar(s[i])
  {
    if s == [] then [] else [LowerChar(s[0])] + Lower(s[1..])
  }

  /** Where the text of `s` starts when scanning forward from `from`: the
      first non-blank position, or `|s|` when only blanks remain. */
  function TextStart(s: string, from: nat): (lo: nat)
    requires from <= |s|
    ensures from <= lo <= |s|
    ensures forall i :: from <= i < lo ==> IsBlank(s[i])
    ensures lo == |s| || !IsBlank(s[lo])
    decreases |s| - from
  {
    if from == |s| || !IsBlank(s[from]) then from else TextStart(s, from + 1)
  }

  /** Where the text of `s` ends when scanning back from `upto` towards `lo`:
      just after the last non-blank position, or `lo` when only blanks
      remain. */
  function TextEnd(s: string, lo: nat, upto: nat): (hi: nat)
    requires lo <= upto <= |s|
    ensures lo <= hi <= upto
    ensures forall i :: hi <= i < upto ==> IsBlank(s[i])
    ensures hi == lo || !IsBlank(s[hi - 1])
    decreases upto
  {
    if upto == lo || !IsBlank(s[upto - 1]) then upto else TextEnd(s, lo, upto - 1)
  }

  /** Every character of `s` before `lo` and from `hi` on is blank. */
  predicate BlankOutside(s: string, lo: int, hi: int) {
    && 0 <= lo <= hi <= |s|
    && (forall i :: 0 <= i < lo ==> IsBlank(s[i]))
    && (forall i :: hi <= i < |s| ==> IsBlank(s[i]))
  }

  /** `String.trim`: the result is `s` with its leading and trailing blanks
      cut off, and has no blank at either end. */
  function Trim(s: string): (r: string)
    ensures |r| <= |s|
    ensures r == [] || (!IsBlank(r[0]) && !IsBlank(r[|r| - 1]))
    ensures exists lo, hi :: BlankOutside(s, lo, hi) && r == s[lo..hi]
  {
    var lo := TextStart(s, 0);
    var hi := TextEnd(s, lo, |s|);
    assert BlankOutside(s, lo, hi);
    s[lo..hi]
  }

  /** No ASCII upper-case letter anywhere in `s`. */
  predicate AllLower(s: string) {
    forall i :: 0 <= i < |s| ==> !IsUpper(s[i])
  }

  /** Lower-casing turns no blank into a non-blank and no non-blank into a
      blank. */
  lemma LowerKeepsBlanks(s: string, lo: int, hi: int)
    requires BlankOutside(Lower(s), lo, hi)
    ensures BlankOutside(s, lo, hi)
  {
    assert forall i :: 0 <= i < |s| ==> (IsBlank(Lower(s)[i]) <==> IsBlank(s[i]));
  }

  /** `answer.toLowerCase().trim()`, with the lower-casing restricted to
      ASCII letters: the lower-cased answer with the blanks at both ends of
      the answer cut off. */
  function Normalize(s: string): (r: string)
    ensures |r| <= |s|
    ensures AllLower(r)
    ensures r == [] || (!IsBlank(r[0]) && !IsBlank(r[|r| - 1]))
    ensures exists lo, hi :: BlankOutside(s, lo, hi) && r == Lower(s)[lo..hi]
  {
    var lowered := Lower(s);
    var lo := TextStart(lowered, 0);
    var hi := TextEnd(lowered, lo, |lowered|);
    LowerSlice(lowered, lo, hi);
    LowerKeepsBlanks(s, lo, hi);
    Trim(lowered)
  }

  /** A slice of a string without upper-case letters has none either. */
  lemma LowerSlice(s: string, lo: nat, hi: nat)
    requires AllLower(s) && lo <= hi <= |s|
    ensures AllLower(s[lo..hi])
  {
    assert forall i :: 0 <= i < hi - lo ==> s[lo..hi][i] == s[lo + i];
  }

  /** A string with no blank at either end is left alone by `Trim`. */
  lemma TrimFixed(s: string)
    requires s == [] || (!IsBlank(s[0]) && !IsBlank(s[|s| - 1]))
    ensures Trim(s) == s
  {
    assert TextStart(s, 0) == 0;
    assert TextEnd(s, 0, |s|) == |s|;
  }

  /** A string with no upper-case letter is left alone by `Lower`. */
  lemma {:induction false} LowerFixed(s: string)
    requires AllLower(s)
    ensures Lower(s) == s
  {
    if s != [] {
      LowerFixed(s[1..]);
    }
  }

  /** Normalising twice is normalising once, so a stored normalised answer
      and a normalised attempt compare the same way whichever is normalised
      again. */
  lemma NormalizeIdempotent(s: string)
    ensures Normalize(Normalize(s)) == Normalize(s)
  {
    var n := Normalize(s);
    LowerFixed(n);
    TrimFixed(n);
  }

  /** The security answer registered as "Paris" and the attempt "paris "
      normalise to the same text. */
  lemma {:induction false} ParisNormalizes()
    ensures Normalize("Paris") == "paris"
    ensures Normalize("paris ") == "paris"
  {
    var upper := Lower("Paris");
    assert upper[0] == LowerChar('P') == 'p';
    assert upper == "paris";
    var spaced := Lower("paris ");
    assert spaced[0] == 'p' && spaced[5] == ' ';
    assert spaced == "paris ";
    TrimFixed("paris");
    assert TextStart("paris ", 0) == 0;
    assert TextEnd("paris ", 0, 6) == 5;
    assert "paris "[0..5] == "paris";
  }
}

=== FILE: identifiers.dfy ===
/** The identifiers both services share: users are found by email or by
    their generated id, books by their generated id. */
module Identifiers {
  type UserId = nat
  type BookId = nat
  type Email = string
}

=== FILE: javaint.dfy ===
/** Java's 32-bit `int` arithmetic, written out over Dafny's unbounded integers. */
module JavaInt {

  const MinInt32: int := -0x8000_0000
  const MaxInt32: int := 0x7fff_ffff
  const Modulus: int := 0x1_0000_0000

  newtype int32 = x: int | -0x8000_0000 <= x <= 0x7fff_ffff

  /** Java's `a + b` on `int`: the mathematical sum wrapped into the signed
      32-bit range. */
  function Add(a: int32, b: int32): (r: int32)
    ensures (r as int - (a as int + b as int)) % Modulus == 0
    ensures MinInt32 <= a as int + b as int <= MaxInt32 ==> r as int == a as int + b as int
  {
    var sum := a as int + b as int;
    if sum > MaxInt32 then (sum - Modulus) as int32
    else if sum < MinInt32 then (sum + Modulus) as int32
    else sum as int32
  }

  /** Incrementing the largest `int` wraps round to the smallest one. */
  lemma IncrementAtMaxWraps()
    ensures Add(MaxInt32 as int32, 1) as int == MinInt32
  {
  }
}

=== FILE: lending.dfy ===
/** Conservation of copies across the reservation operations: where the
    stock counter and the EN_COURS reservations stay in step, where the
    legacy path breaks that, and a corrected legacy path that keeps it. */
module Lending {
  import opened Results
  import opened JavaInt
  import opened Identifiers
  import opened Reservations

  /** Copies of book `b` the library holds: those on the shelf (the stock
      counter) plus those out on an EN_COURS reservation. */
  function Holding(s: Store, b: BookId): int
    requires b in s.books && s.books[b].stock.Some?
  {
    s.books[b].stock.value as int + CountActive(s.reservations, OnBook(b))
  }

  // ---------------------------------------------------------------------
  // One operation at a time
  // ---------------------------------------------------------------------

  /** `reserveBook` moves a copy from the shelf to a reservation: every
      book's holding is unchanged. */
  lemma ReservePreservesHolding(s: Store, b: BookId, email: Email, c: BookId)
    requires ReserveBook(s, b, email).Ok?
    requires c in s.books && s.books[c].stock.Some?
    ensures var t := ReserveBook(s, b, email).value;
            c in t.books && t.books[c].stock.Some? && Holding(t, c) == Holding(s, c)
  {
    var t := ReserveBook(s, b, email).value;
    var u := s.accounts[email];
    assert t.reservations == s.reservations + [Reservation(u, b, EnCours)];
    CountActiveAppend(s.reservations, Reservation(u, b, EnCours), OnBook(c));
  }

  /** `returnBook` and `cancelReservation` move a copy from a reservation
      back to the shelf: every book's holding is unchanged, provided the
      shelf count was below the largest `int` so the increment did not wrap. */
  lemma ClosePreservesHolding(s: Store, id: ReservationId, closed: Status, c: BookId)
    requires closed != EnCours
    requires Close(s, id, closed).Ok?
    requires c in s.books && s.books[c].stock.Some?
    requires s.books[s.reservations[id].book].stock.value as int < MaxInt32
    ensures var t := Close(s, id, closed).value;
            c in t.books && t.books[c].stock.Some? && Holding(t, c) == Holding(s, c)
  {
    CloseCounts(s, id, closed, OnBook(c));
  }

  /** The legacy path puts a copy out on reservation without taking it off
      the shelf: the book's holding grows by one. */
  lemma CreateReservationInflatesHolding(s: Store, email: Email, b: BookId)
    requires CreateReservation(s, email, b).Ok?
    requires s.books[b].stock.Some?
    ensures var t := CreateReservation(s, email, b).value;
            b in t.books && t.books[b].stock.Some? && Holding(t, b) == Holding(s, b) + 1
  {
    var t := CreateReservation(s, email, b).value;
    CountActiveAppend(s.reservations, Reservation(s.accounts[email], b, EnCours), OnBook(b));
  }

  /** A concrete run of the legacy path: one copy on the shelf, a reservation
      through `createReservation`, then `returnBook` on it, and the shelf
      holds two copies. */
  lemma LegacyReturnInflatesStock()
    ensures var s := Store(map["reader@example.com" := 1], map[7 := Book(Some(1))], []);
            var created := CreateReservation(s, "reader@example.com", 7);
            && created.Ok?
            && created.value.books[7].stock == Some(1)
            && ReturnBook(created.value, 0).Ok?
            && ReturnBook(created.value, 0).value.books[7].stock == Some(2)
  {
    var s := Store(map["reader@example.com" := 1], map[7 := Book(Some(1))], []);
    var t := s.(reservations := [Reservation(1, 7, EnCours)]);
    assert CountActive(s.reservations, OnBook(7)) == 0;
    assert CountActive(s.reservations, OfUserOnBook(1, 7)) == 0;
    assert s.accounts["reader@example.com"] == 1;
    assert s.reservations + [Reservation(1, 7, EnCours)] == t.reservations;
    assert CreateReservation(s, "reader@example.com", 7) == Ok(t);
    assert Add(1, 1) == 2;
  }

  /** A concrete run of the legacy path past the three-reservation cap: a
      user holding three EN_COURS reservations obtains a fourth. */
  lemma LegacyPathExceedsCap()
    ensures var s := Store(map["reader@example.com" := 1],
                           map[1 := Book(Some(1)), 2 := Book(Some(1)), 3 := Book(Some(1)), 4 := Book(Some(1))],
                           [Reservation(1, 1, EnCours), Reservation(1, 2, EnCours), Reservation(1, 3, EnCours)]);
            var created := CreateReservation(s, "reader@example.com", 4);
            && CountActive(s.reservations, OfUser(1)) == MaxActivePerUser
            && ReserveBook(s, 4, "reader@example.com") == Err(LimitReached)
            && created.Ok?
            && CountActive(created.value.reservations, OfUser(1)) == MaxActivePerUser + 1
  {
    var s := Store(map["reader@example.com" := 1],
                   map[1 := Book(Some(1)), 2 := Book(Some(1)), 3 := Book(Some(1)), 4 := Book(Some(1))],
                   [Reservation(1, 1, EnCours), Reservation(1, 2, EnCours), Reservation(1, 3, EnCours)]);
    var rs := s.reservations;
    assert rs[..2] == [Reservation(1, 1, EnCours), Reservation(1, 2, EnCours)];
    assert rs[..2][..1] == [Reservation(1, 1, EnCours)];
    assert CountActive(rs, OfUser(1)) == 3;
    assert CountActive(rs, OfUserOnBook(1, 4)) == 0;
    assert CountActive(rs, OnBook(4)) == 0;
    CountActiveAppend(rs, Reservation(1, 4, EnCours), OfUser(1));
  }

  /** The legacy path corrected: its own gates, then the stock-gated
      operation, so that a reservation made here also takes its copy off
      the shelf and respects the three-reservation cap, as `reserveBook`
      does (ReservationService.java:88-121). */
  function CreateReservationConserving(s: Store, email: Email, b: BookId): (r: Result<Store, ReservationError>)
    ensures CreateReservation(s, email, b).Err? ==> r == CreateReservation(s, email, b)
    ensures CreateReservation(s, email, b).Ok? ==> r == ReserveBook(s, b, email)
    ensures r.Ok? ==> IsBookAvailable(s, b) == Ok(true)
    ensures r.Ok? ==> r == ReserveBook(s, b, email)
    ensures r.Ok? ==>
              && b in r.value.books
              && r.value.books[b].stock.Some?
              && r.value.books[b].stock.value as int == s.books[b].stock.value as int - 1 >= 0
              && r.value.reservations == s.reservations + [Reservation(s.accounts[email], b, EnCours)]
  {
    match CreateReservation(s, email, b)
    case Err(e) => Err(e)
    case Ok(_) => ReserveBook(s, b, email)
  }

  /** The corrected legacy path keeps every book's holding. */
  lemma CreateConservingPreservesHolding(s: Store, email: Email, b: BookId, c: BookId)
    requires CreateReservationConserving(s, email, b).Ok?
    requires c in s.books && s.books[c].stock.Some?
    ensures var t := CreateReservationConserving(s, email, b).value;
            c in t.books && t.books[c].stock.Some? && Holding(t, c) == Holding(s, c)
  {
    ReservePreservesHolding(s, b, email, c);
  }

  // ---------------------------------------------------------------------
  // Round trips
  // ---------------------------------------------------------------------

  /** Reserving a copy and then returning or cancelling that reservation
      gives every book back exactly the stock it had. */
  lemma ReserveThenCloseRestoresStock(s: Store, b: BookId, email: Email, closed: Status)
    requires closed != EnCours
    requires ReserveBook(s, b, email).Ok?
    ensures var t := ReserveBook(s, b, email).value;
            var back := Close(t, |s.reservations|, closed);
            && back.Ok?
            && back.value.books == s.books
            && back.value.reservations == s.reservations + [Reservation(s.accounts[email], b, closed)]
  {
    var t := ReserveBook(s, b, email).value;
    var back := Close(t, |s.reservations|, closed).value;
    assert back.books[b] == s.books[b];
    assert back.books == s.books;
  }

  /** The single-copy walk-through: with one copy, a first reader reserves
      it, a second is refused for lack of stock, the first cancels, and the
      second then obtains it. */
  lemma SingleCopyScenario()
    ensures var s := Store(map["u1@example.com" := 1, "u2@example.com" := 2], map[9 := Book(Some(1))], []);
            var first := ReserveBook(s, 9, "u1@example.com");
            && first.Ok? && first.value.books[9].stock == Some(0)
            && ReserveBook(first.value, 9, "u2@example.com") == Err(OutOfStock)
            && CancelReservation(first.value, 0).Ok?
            && CancelReservation(first.value, 0).value.books[9].stock == Some(1)
            && CancelReservation(first.value, 0).value.reservations[0].status == Annulee
            && ReserveBook(CancelReservation(first.value, 0).value, 9, "u2@example.com").Ok?
            && ReserveBook(CancelReservation(first.value, 0).value, 9, "u2@example.com").value.books[9].stock == Some(0)
  {
    var s := Store(map["u1@example.com" := 1, "u2@example.com" := 2], map[9 := Book(Some(1))], []);
    var first := ReserveBook(s, 9, "u1@example.com").value;
    assert first.reservations == [Reservation(1, 9, EnCours)];
    var cancelled := CancelReservation(first, 0).value;
    assert cancelled.reservations == [Reservation(1, 9, Annulee)];
    assert CountActive(cancelled.reservations, OfUserOnBook(2, 9)) == 0;
    assert CountActive(cancelled.reservations, OfUser(2)) == 0;
  }

  // ---------------------------------------------------------------------
  // Sequences of operations
  // ---------------------------------------------------------------------

  /** A request to the reservation service. `Create` is served by the
      corrected legacy path. */
  datatype Request =
    | Reserve(book: BookId, email: Email)
    | Create(email: Email, book: BookId)
    | Return(id: ReservationId)
    | Cancel(id: ReservationId)

  function Apply(s: Store, req: Request): Result<Store, ReservationError> {
    match req
    case Reserve(b, email) => ReserveBook(s, b, email)
    case Create(email, b) => CreateReservationConserving(s, email, b)
    case Return(id) => ReturnBook(s, id)
    case Cancel(id) => CancelReservation(s, id)
  }

  /** A failed request leaves the store as it was. */
  function Step(s: Store, req: Request): Store {
    match Apply(s, req)
    case Ok(t) => t
    case Err(_) => s
  }

  function Run(s: Store, reqs: seq<Request>): Store
    decreases |reqs|
  {
    if reqs == [] then s else Run(Step(s, reqs[0]), reqs[1..])
  }

  /** The store invariant the stock-gated operations keep: reservations point
      at known books; an EN_COURS reservation's book has a counter; no
      counter is negative and no holding exceeds the largest `int` (so no
      increment wraps); at most one EN_COURS reservation per user and book;
      at most three per user. */
  ghost predicate Consistent(s: Store) {
    && (forall i :: 0 <= i < |s.reservations| ==> s.reservations[i].book in s.books)
    && (forall i :: 0 <= i < |s.reservations| && s.reservations[i].status == EnCours
                    ==> s.books[s.reservations[i].book].stock.Some?)
    && (forall b :: b in s.books && s.books[b].stock.Some?
                    ==> 0 <= s.books[b].stock.value as int && Holding(s, b) <= MaxInt32)
    && (forall u, b :: CountActive(s.reservations, OfUserOnBook(u, b)) <= 1)
    && (forall u :: CountActive(s.reservations, OfUser(u)) <= MaxActivePerUser)
  }

  /** Every book keeps its counter and its holding from `s` to `t`. */
  ghost predicate SameHoldings(s: Store, t: Store) {
    && s.books.Keys == t.books.Keys
    && forall c :: c in s.books && s.books[c].stock.Some?
                   ==> t.books[c].stock.Some? && Holding(t, c) == Holding(s, c)
  }

  lemma ReserveKeepsConsistent(s: Store, b: BookId, email: Email)
    requires Consistent(s)
    requires ReserveBook(s, b, email).Ok?
    ensures Consistent(ReserveBook(s, b, email).value)
    ensures SameHoldings(s, ReserveBook(s, b, email).value)
  {
    var t := ReserveBook(s, b, email).value;
    var u := s.accounts[email];
    var r := Reservation(u, b, EnCours);
    assert t.reservations == s.reservations + [r];
    forall c | c in s.books && s.books[c].stock.Some?
      ensures t.books[c].stock.Some? && Holding(t, c) == Holding(s, c)
    {
      ReservePreservesHolding(s, b, email, c);
    }
    forall c | c in t.books && t.books[c].stock.Some?
      ensures 0 <= t.books[c].stock.value as int && Holding(t, c) <= MaxInt32
    {
      ReservePreservesHolding(s, b, email, c);
    }
    ReserveKeepsCaps(s, b, email);
  }

  /** A reservation that passed the gates keeps both caps: one active
      reservation per user and book, three per user. */
  lemma ReserveKeepsCaps(s: Store, b: BookId, email: Email)
    requires Consistent(s)
    requires ReserveBook(s, b, email).Ok?
    ensures forall v, c :: CountActive(ReserveBook(s, b, email).value.reservations, OfUserOnBook(v, c)) <= 1
    ensures forall v :: CountActive(ReserveBook(s, b, email).value.reservations, OfUser(v)) <= MaxActivePerUser
  {
    var t := ReserveBook(s, b, email).value;
    var r := Reservation(s.accounts[email], b, EnCours);
    assert t.reservations == s.reservations + [r];
    forall v, c ensures CountActive(t.reservations, OfUserOnBook(v, c)) <= 1 {
      CountActiveAppend(s.reservations, r, OfUserOnBook(v, c));
    }
    forall v ensures CountActive(t.reservations, OfUser(v)) <= MaxActivePerUser {
      CountActiveAppend(s.reservations, r, OfUser(v));
    }
  }

  lemma CloseKeepsConsistent(s: Store, id: ReservationId, closed: Status)
    requires Consistent(s)
    requires closed != EnCours
    requires Close(s, id, closed).Ok?
    ensures Consistent(Close(s, id, closed).value)
    ensures SameHoldings(s, Close(s, id, closed).value)
  {
    var t := Close(s, id, closed).value;
    var b := s.reservations[id].book;
    CountActivePositive(s.reservations, id, OnBook(b));
    assert s.books[b].stock.value as int < MaxInt32;
    forall c | c in s.books && s.books[c].stock.Some?
      ensures t.books[c].stock.Some? && Holding(t, c) == Holding(s, c)
    {
      ClosePreservesHolding(s, id, closed, c);
    }
    forall c | c in t.books && t.books[c].stock.Some?
      ensures 0 <= t.books[c].stock.value as int && Holding(t, c) <= MaxInt32
    {
      ClosePreservesHolding(s, id, closed, c);
    }
    forall i | 0 <= i < |t.reservations| && t.reservations[i].status == EnCours
      ensures t.books[t.reservations[i].book].stock.Some?
    {
      assert i != id;
    }
    forall v, c ensures CountActive(t.reservations, OfUserOnBook(v, c)) <= 1 {
      CloseCounts(s, id, closed, OfUserOnBook(v, c));
    }
    forall v ensures CountActive(t.reservations, OfUser(v)) <= MaxActivePerUser {
      CloseCounts(s, id, closed, OfUser(v));
    }
  }

  lemma StepKeepsConsistent(s: Store, req: Request)
    requires Consistent(s)
    ensures Consistent(Step(s, req))
    ensures SameHoldings(s, Step(s, req))
  {
    match Apply(s, req)
    case Err(_) =>
    case Ok(_) =>
      match req
      case Reserve(b, email) => ReserveKeepsConsistent(s, b, email);
      case Create(email, b) => ReserveKeepsConsistent(s, b, email);
      case Return(id) => CloseKeepsConsistent(s, id, Retourne);
      case Cancel(id) => CloseKeepsConsistent(s, id, Annulee);
  }

  /** Over any sequence of requests the invariant holds throughout, no
      counter goes negative, and every book's holding is conserved. */
  lemma {:induction false} RunConservesHoldings(s: Store, reqs: seq<Request>)
    requires Consistent(s)
    ensures Consistent(Run(s, reqs))
    ensures SameHoldings(s, Run(s, reqs))
    decreases |reqs|
  {
    if reqs != [] {
      var s1 := Step(s, reqs[0]);
      StepKeepsConsistent(s, reqs[0]);
      RunConservesHoldings(s1, reqs[1..]);
    }
  }
}

=== FILE: password_history.dfy ===
/** The password history ledger: a user's earlier password digests, newest
    first (the order of `findTopNByUserIdOrderByChangedAtDesc`), read five
    at a time by the reuse check and pruned to five after each renewal. */
module PasswordHistory {
  import opened Credentials

  /** How many past digests the reuse check reads and the ledger keeps. */
  const HistoryLimit: nat := 5

  /** The newest `HistoryLimit` entries: `history.subList(0, min(5, size))`. */
  function Recent(h: seq<Digest>): (r: seq<Digest>)
    ensures |r| == if |h| < HistoryLimit then |h| else HistoryLimit
    ensures r == h[..|r|]
  {
    if |h| <= HistoryLimit then h else h[..HistoryLimit]
  }

  /** `p` verifies against one of the newest five entries. */
  predicate Reused(h: seq<Digest>, p: string) {
    exists i :: 0 <= i < |Recent(h)| && Matches(p, Recent(h)[i])
  }

  /** The reuse loop: walks the newest five entries in order and stops at the
      first one the candidate verifies against. */
  method CheckReuse(h: seq<Digest>, p: string) returns (reused: bool)
    ensures reused <==> Reused(h, p)
  {
    var limit := if |h| < HistoryLimit then |h| else HistoryLimit;
    var last := h[..limit];
    assert last == Recent(h);
    var k := 0;
    while k < |last|
      invariant 0 <= k <= |last|
      invariant forall j :: 0 <= j < k ==> !Matches(p, last[j])
    {
      if Matches(p, last[k]) {
        return true;
      }
      k := k + 1;
    }
    return false;
  }

  /** Saves `previous` as the newest entry and deletes everything past the fifth:
      the entry that falls off is the oldest one. */
  function Push(h: seq<Digest>, previous: Digest): (r: seq<Digest>)
    ensures |r| == if |h| + 1 < HistoryLimit then |h| + 1 else HistoryLimit
    ensures r[0] == previous
    ensures forall i :: 0 < i < |r| ==> r[i] == h[i - 1]
  {
    Recent([previous] + h)
  }

  /** The ledger after saving `ds` in order, the last one most recently. */
  function PushAll(h: seq<Digest>, ds: seq<Digest>): (r: seq<Digest>)
    ensures ds != [] ==> |r| == if |h| + |ds| < HistoryLimit then |h| + |ds| else HistoryLimit
  {
    if ds == [] then h else Push(PushAll(h, ds[..|ds| - 1]), ds[|ds| - 1])
  }

  /** The newest entries of the ledger are the digests saved last, newest
      first. */
  lemma {:induction false} PushAllNewest(h: seq<Digest>, ds: seq<Digest>, j: nat)
    requires j < |ds| && j < HistoryLimit
    ensures j < |PushAll(h, ds)| && PushAll(h, ds)[j] == ds[|ds| - 1 - j]
  {
    var init := ds[..|ds| - 1];
    if j > 0 {
      PushAllNewest(h, init, j - 1);
    }
  }

  /** What the reuse check reads after a run of saves: the digests saved
      last, newest first, and never more than five. */
  lemma {:induction false} PushAllRecent(h: seq<Digest>, ds: seq<Digest>)
    ensures |Recent(PushAll(h, ds))| <= HistoryLimit
    ensures forall j :: 0 <= j < HistoryLimit && j < |ds| ==>
              j < |Recent(PushAll(h, ds))| && Recent(PushAll(h, ds))[j] == ds[|ds| - 1 - j]
  {
    var r := PushAll(h, ds);
    forall j | 0 <= j < HistoryLimit && j < |ds|
      ensures j < |Recent(r)| && Recent(r)[j] == ds[|ds| - 1 - j]
    {
      PushAllNewest(h, ds, j);
    }
  }

  /** Each save moves an older entry one place back, until it falls off. */
  lemma {:induction false} PushAllShifts(h: seq<Digest>, ds: seq<Digest>, i: nat)
    requires i < |h| && i + |ds| < HistoryLimit
    ensures i + |ds| < |PushAll(h, ds)| && PushAll(h, ds)[i + |ds|] == h[i]
  {
    if ds != [] {
      PushAllShifts(h, ds[..|ds| - 1], i);
    }
  }

  /** Once a password's digest has been saved, the reuse check rejects that
      password through the next four saves. */
  lemma {:induction false} BlockedForFourMoreSaves(h: seq<Digest>, p: string, ds: seq<Digest>)
    requires |ds| < HistoryLimit
    ensures Reused(PushAll(Push(h, Hash(p)), ds), p)
  {
    var start := Push(h, Hash(p));
    assert 0 < |start| && start[0] == Hash(p);
    PushAllShifts(start, ds, 0);
    var r := PushAll(start, ds);
    var k := |ds|;
    assert k < |Recent(r)| && Recent(r)[k] == r[k];
    assert Matches(p, Recent(r)[k]);
  }

  /** After five more saves, none of them of `p`, the reuse check no longer
      sees `p`: the oldest entry has been evicted. */
  lemma {:induction false} ReleasedAfterFiveSaves(h: seq<Digest>, p: string, ds: seq<Digest>)
    requires |ds| == HistoryLimit
    requires forall k :: 0 <= k < |ds| ==> !Matches(p, ds[k])
    ensures !Reused(PushAll(h, ds), p)
  {
    var r := PushAll(h, ds);
    forall j | 0 <= j < |Recent(r)|
      ensures !Matches(p, Recent(r)[j])
    {
      PushAllNewest(h, ds, j);
    }
  }

  /** The walk-through of five renewals: after the passwords p0 to p4 have
      been saved in turn, p1 is still blocked, and saving p5 evicts p0. */
  lemma FiveRenewalsScenario()
    ensures var h := PushAll([], [Hash("p0"), Hash("p1"), Hash("p2"), Hash("p3"), Hash("p4")]);
            && h == [Hash("p4"), Hash("p3"), Hash("p2"), Hash("p1"), Hash("p0")]
            && Reused(h, "p1")
            && Push(h, Hash("p5")) == [Hash("p5"), Hash("p4"), Hash("p3"), Hash("p2"), Hash("p1")]
            && !Reused(Push(h, Hash("p5")), "p0")
  {
    var ds := [Hash("p0"), Hash("p1"), Hash("p2"), Hash("p3"), Hash("p4")];
    var h := PushAll([], ds);
    forall j | 0 <= j < 5 ensures h[j] == ds[4 - j] {
      PushAllNewest([], ds, j);
    }
    assert Recent(h)[3] == Hash("p1");
    var h5 := Push(h, Hash("p5"));
    assert h5 == [Hash("p5"), Hash("p4"), Hash("p3"), Hash("p2"), Hash("p1")];
    forall j | 0 <= j < 5 ensures !Matches("p0", h5[j]) {
      MatchesExactly("p0", h5[j].source);
    }
  }
}

=== FILE: reservations.dfy ===
/** The reservation service: the stock-gated `reserveBook` path, the legacy
    `createReservation` path, returning and cancelling, and the read-only
    queries over the reservation store. */
module Reservations {
  import opened Results
  import opened JavaInt
  import opened Identifiers

  /** A reservation's identifier is its position in the store: the database
      hands out increasing identifiers and the service never deletes a
      reservation. */
  type ReservationId = nat

  /** EN_COURS, RETOURNE and ANNULEE; the last two are terminal. */
  datatype Status = EnCours | Retourne | Annulee

  datatype Reservation = Reservation(user: UserId, book: BookId, status: Status)

  /** Only the stock counter takes part in the reservation logic. It is a
      boxed Java `Integer`, so `None` stands for a null counter. */
  datatype Book = Book(stock: Option<int32>)

  /** The three stores the service reads: the user repository seen through
      its lookup by email, the books, and the reservations. */
  datatype Store = Store(
    accounts: map<Email, UserId>,
    books: map<BookId, Book>,
    reservations: seq<Reservation>)

  datatype ReservationError =
    | UserNotFound        // "Utilisateur non trouvé"
    | BookNotFound        // "Livre non trouvé"
    | OutOfStock          // "Ce livre n'est plus disponible en stock"
    | AlreadyReserved     // "Vous avez déjà réservé ce livre"
    | LimitReached        // "Vous avez atteint la limite de 3 livres ..."
    | BookTaken           // "Ce livre est déjà réservé par un autre utilisateur"
    | ReservationNotFound // "Réservation non trouvée"
    | NotInProgress       // the reservation is not EN_COURS
    | NullStock           // unboxing a null stock counter

  /** How many EN_COURS reservations one user may hold at once. */
  const MaxActivePerUser: nat := 3

  // ---------------------------------------------------------------------
  // Counting in-progress reservations
  // ---------------------------------------------------------------------

  /** Which reservations a count is about. */
  datatype Selector = OnBook(book: BookId) | OfUser(user: UserId) | OfUserOnBook(user: UserId, book: BookId)

  predicate Selects(sel: Selector, r: Reservation) {
    match sel
    case OnBook(b) => r.book == b
    case OfUser(u) => r.user == u
    case OfUserOnBook(u, b) => r.user == u && r.book == b
  }

  /** `r` is an EN_COURS reservation that `sel` is about. */
  predicate Counted(sel: Selector, r: Reservation) {
    r.status == EnCours && Selects(sel, r)
  }

  function Indicator(b: bool): nat {
    if b then 1 else 0
  }

  /** The number of EN_COURS reservations in `rs` that `sel` is about; the
      size of the list the repository's `find...AndStatus(EN_COURS)` returns. */
  function CountActive(rs: seq<Reservation>, sel: Selector): (n: nat)
    ensures n <= |rs|
    ensures n == 0 <==> forall i :: 0 <= i < |rs| ==> !Counted(sel, rs[i])
  {
    if rs == [] then 0
    else
      var init := rs[..|rs| - 1];
      assert forall i :: 0 <= i < |init| ==> init[i] == rs[i];
      CountActive(init, sel) + Indicator(Counted(sel, rs[|rs| - 1]))
  }

  /** Appending a reservation adds one to every count that is about it. */
  lemma CountActiveAppend(rs: seq<Reservation>, r: Reservation, sel: Selector)
    ensures CountActive(rs + [r], sel) == CountActive(rs, sel) + Indicator(Counted(sel, r))
  {
    assert (rs + [r])[..|rs|] == rs;
  }

  /** Overwriting one reservation changes a count by what the old and the new
      record contribute to it, and by nothing else. */
  lemma {:induction false} CountActiveUpdate(rs: seq<Reservation>, i: nat, r: Reservation, sel: Selector)
    requires i < |rs|
    ensures CountActive(rs[i := r], sel) + Indicator(Counted(sel, rs[i]))
         == CountActive(rs, sel) + Indicator(Counted(sel, r))
  {
    var last := |rs| - 1;
    if i == last {
      assert rs[i := r][..last] == rs[..last];
    } else {
      assert rs[i := r][..last] == rs[..last][i := r];
      CountActiveUpdate(rs[..last], i, r, sel);
    }
  }

  /** A reservation that a count is about makes that count positive. */
  lemma CountActivePositive(rs: seq<Reservation>, i: nat, sel: Selector)
    requires i < |rs| && Counted(sel, rs[i])
    ensures CountActive(rs, sel) >= 1
  {
  }

  /** The count of in-progress reservations of one user on one book never
      exceeds the count on that book alone, nor the user's own count. */
  lemma {:induction false} CountActivePairBounded(rs: seq<Reservation>, u: UserId, b: BookId)
    ensures CountActive(rs, OfUserOnBook(u, b)) <= CountActive(rs, OnBook(b))
    ensures CountActive(rs, OfUserOnBook(u, b)) <= CountActive(rs, OfUser(u))
  {
    if rs != [] {
      CountActivePairBounded(rs[..|rs| - 1], u, b);
    }
  }

  // ---------------------------------------------------------------------
  // The stock-gated path
  // ---------------------------------------------------------------------

  /** `reserveBook(bookId, userEmail)`. The gates run in the source's order:
      unknown user, unknown book, null or non-positive stock, an EN_COURS
      reservation of the same user on the same book, the user already
      holding three EN_COURS reservations. On success the book gives up one
      copy and a new EN_COURS reservation is appended; nothing else changes. */
  function ReserveBook(s: Store, b: BookId, email: Email): (r: Result<Store, ReservationError>)
    ensures email !in s.accounts ==> r == Err(UserNotFound)
    ensures email in s.accounts && b !in s.books ==> r == Err(BookNotFound)
    ensures (email in s.accounts && b in s.books
             && (s.books[b].stock.None? || s.books[b].stock.value <= 0)) ==> r == Err(OutOfStock)
    ensures (email in s.accounts && b in s.books
             && s.books[b].stock.Some? && s.books[b].stock.value > 0
             && CountActive(s.reservations, OfUserOnBook(s.accounts[email], b)) > 0) ==> r == Err(AlreadyReserved)
    ensures (email in s.accounts && b in s.books
             && s.books[b].stock.Some? && s.books[b].stock.value > 0
             && CountActive(s.reservations, OfUserOnBook(s.accounts[email], b)) == 0
             && CountActive(s.reservations, OfUser(s.accounts[email])) >= MaxActivePerUser) ==> r == Err(LimitReached)
    ensures r.Ok? <==>
              && email in s.accounts && b in s.books
              && s.books[b].stock.Some? && s.books[b].stock.value > 0
              && CountActive(s.reservations, OfUserOnBook(s.accounts[email], b)) == 0
              && CountActive(s.reservations, OfUser(s.accounts[email])) < MaxActivePerUser
    ensures r.Ok? ==>
              && r.value.accounts == s.accounts
              && r.value.books.Keys == s.books.Keys
              && (forall c :: c in s.books && c != b ==> r.value.books[c] == s.books[c])
              && r.value.books[b].stock.Some?
              && r.value.books[b].stock.value as int == s.books[b].stock.value as int - 1 >= 0
              && |r.value.reservations| == |s.reservations| + 1
              && r.value.reservations[..|s.reservations|] == s.reservations
              && r.value.reservations[|s.reservations|] == Reservation(s.accounts[email], b, EnCours)
  {
    if email !in s.accounts then Err(UserNotFound)
    else if b !in s.books then Err(BookNotFound)
    else
      var u := s.accounts[email];
      var book := s.books[b];
      if book.stock.None? || book.stock.value <= 0 then Err(OutOfStock)
      else if CountActive(s.reservations, OfUserOnBook(u, b)) > 0 then Err(AlreadyReserved)
      else if CountActive(s.reservations, OfUser(u)) >= MaxActivePerUser then Err(LimitReached)
      else
        var taken := book.(stock := Some(book.stock.value - 1));
        var added := s.reservations + [Reservation(u, b, EnCours)];
        assert added[..|s.reservations|] == s.reservations;
        Ok(s.(books := s.books[b := taken], reservations := added))
  }

  /** After a successful `reserveBook` the book has one more reservation in
      progress, the user holds at most three of them, and exactly one on
      this book. */
  lemma ReserveBookCounts(s: Store, b: BookId, email: Email)
    requires ReserveBook(s, b, email).Ok?
    ensures var t := ReserveBook(s, b, email).value;
            var u := s.accounts[email];
            && CountActive(t.reservations, OnBook(b)) == CountActive(s.reservations, OnBook(b)) + 1
            && CountActive(t.reservations, OfUser(u)) == CountActive(s.reservations, OfUser(u)) + 1
            && CountActive(t.reservations, OfUser(u)) <= MaxActivePerUser
            && CountActive(t.reservations, OfUserOnBook(u, b)) == 1
  {
    var t := ReserveBook(s, b, email).value;
    var u := s.accounts[email];
    var r := Reservation(u, b, EnCours);
    assert t.reservations == s.reservations + [r];
    CountActiveAppend(s.reservations, r, OnBook(b));
    CountActiveAppend(s.reservations, r, OfUser(u));
    CountActiveAppend(s.reservations, r, OfUserOnBook(u, b));
  }

  // ---------------------------------------------------------------------
  // Returning and cancelling
  // ---------------------------------------------------------------------

  /** The shared body of `returnBook` and `cancelReservation`: the
      reservation must exist and be EN_COURS; it moves to `closed` and its
      book gets one copy back, with Java's `int` addition. A reservation
      whose book record is missing cannot occur under the store's foreign
      key and is reported as an unknown book. */
  function Close(s: Store, id: ReservationId, closed: Status): (r: Result<Store, ReservationError>)
    requires closed != EnCours
    ensures id >= |s.reservations| ==> r == Err(ReservationNotFound)
    ensures id < |s.reservations| && s.reservations[id].status != EnCours ==> r == Err(NotInProgress)
    ensures (id < |s.reservations| && s.reservations[id].status == EnCours
             && s.reservations[id].book !in s.books) ==> r == Err(BookNotFound)
    ensures (id < |s.reservations| && s.reservations[id].status == EnCours
             && s.reservations[id].book in s.books
             && s.books[s.reservations[id].book].stock.None?) ==> r == Err(NullStock)
    ensures r.Ok? <==>
              && id < |s.reservations| && s.reservations[id].status == EnCours
              && s.reservations[id].book in s.books
              && s.books[s.reservations[id].book].stock.Some?
    ensures r.Ok? ==>
              var b := s.reservations[id].book;
              var before := s.books[b].stock.value;
              && r.value.accounts == s.accounts
              && r.value.books.Keys == s.books.Keys
              && (forall c :: c in s.books && c != b ==> r.value.books[c] == s.books[c])
              && r.value.books[b] == s.books[b].(stock := r.value.books[b].stock)
              && r.value.books[b].stock.Some?
              && r.value.books[b].stock == Some(Add(before, 1))
              && (before as int < MaxInt32 ==> r.value.books[b].stock.value as int == before as int + 1)
              && |r.value.reservations| == |s.reservations|
              && r.value.reservations[id] == s.reservations[id].(status := closed)
              && (forall j :: 0 <= j < |s.reservations| && j != id ==> r.value.reservations[j] == s.reservations[j])
  {
    if id >= |s.reservations| then Err(ReservationNotFound)
    else
      var res := s.reservations[id];
      if res.status != EnCours then Err(NotInProgress)
      else if res.book !in s.books then Err(BookNotFound)
      else
        var book := s.books[res.book];
        if book.stock.None? then Err(NullStock)
        else
          var restocked := book.(stock := Some(Add(book.stock.value, 1)));
          Ok(s.(books := s.books[res.book := restocked],
                reservations := s.reservations[id := res.(status := closed)]))
  }

  /** `returnBook(reservationId)`: EN_COURS becomes RETOURNE, one copy back. */
  function ReturnBook(s: Store, id: ReservationId): (r: Result<Store, ReservationError>)
    ensures id >= |s.reservations| ==> r == Err(ReservationNotFound)
    ensures id < |s.reservations| && s.reservations[id].status != EnCours ==> r == Err(NotInProgress)
    ensures (id < |s.reservations| && s.reservations[id].status == EnCours
             && s.reservations[id].book !in s.books) ==> r == Err(BookNotFound)
    ensures (id < |s.reservations| && s.reservations[id].status == EnCours
             && s.reservations[id].book in s.books
             && s.books[s.reservations[id].book].stock.None?) ==> r == Err(NullStock)
    ensures r.Ok? <==>
              && id < |s.reservations| && s.reservations[id].status == EnCours
              && s.reservations[id].book in s.books
              && s.books[s.reservations[id].book].stock.Some?
    ensures r.Ok? ==>
              var b := s.reservations[id].book;
              && r.value.accounts == s.accounts
              && r.value.books.Keys == s.books.Keys
              && (forall c :: c in s.books && c != b ==> r.value.books[c] == s.books[c])
              && r.value.books[b] == s.books[b].(stock := Some(Add(s.books[b].stock.value, 1)))
    ensures r.Ok? ==>
              && |r.value.reservations| == |s.reservations|
              && r.value.reservations[id] == s.reservations[id].(status := Retourne)
              && (forall j :: 0 <= j < |s.reservations| && j != id ==> r.value.reservations[j] == s.reservations[j])
  {
    Close(s, id, Retourne)
  }

  /** `cancelReservation(reservationId)`: EN_COURS becomes ANNULEE, one copy back. */
  function CancelReservation(s: Store, id: ReservationId): (r: Result<Store, ReservationError>)
    ensures id >= |s.reservations| ==> r == Err(ReservationNotFound)
    ensures id < |s.reservations| && s.reservations[id].status != EnCours ==> r == Err(NotInProgress)
    ensures (id < |s.reservations| && s.reservations[id].status == EnCours
             && s.reservations[id].book !in s.books) ==> r == Err(BookNotFound)
    ensures (id < |s.reservations| && s.reservations[id].status == EnCours
             && s.reservations[id].book in s.books
             && s.books[s.reservations[id].book].stock.None?) ==> r == Err(NullStock)
    ensures r.Ok? <==>
              && id < |s.reservations| && s.reservations[id].status == EnCours
              && s.reservations[id].book in s.books
              && s.books[s.reservations[id].book].stock.Some?
    ensures r.Ok? ==>
              var b := s.reservations[id].book;
              && r.value.accounts == s.accounts
              && r.value.books.Keys == s.books.Keys
              && (forall c :: c in s.books && c != b ==> r.value.books[c] == s.books[c])
              && r.value.books[b] == s.books[b].(stock := Some(Add(s.books[b].stock.value, 1)))
    ensures r.Ok? ==>
              && |r.value.reservations| == |s.reservations|
              && r.value.reservations[id] == s.reservations[id].(status := Annulee)
              && (forall j :: 0 <= j < |s.reservations| && j != id ==> r.value.reservations[j] == s.reservations[j])
  {
    Close(s, id, Annulee)
  }

  /** Closing a reservation takes one away from the counts that were about it
      and leaves every other count as it was. */
  lemma CloseCounts(s: Store, id: ReservationId, closed: Status, sel: Selector)
    requires closed != EnCours
    requires Close(s, id, closed).Ok?
    ensures CountActive(Close(s, id, closed).value.reservations, sel) + Indicator(Counted(sel, s.reservations[id]))
         == CountActive(s.reservations, sel)
  {
    var res := s.reservations[id];
    CountActiveUpdate(s.reservations, id, res.(status := closed), sel);
  }

  /** A return or cancellation on a book whose counter already holds the
      largest `int` wraps the counter to the smallest one. */
  lemma CloseAtMaxWraps(s: Store, id: ReservationId, closed: Status)
    requires closed != EnCours
    requires Close(s, id, closed).Ok?
    requires s.books[s.reservations[id].book].stock == Some(MaxInt32 as int32)
    ensures Close(s, id, closed).value.books[s.reservations[id].book].stock == Some(MinInt32 as int32)
  {
    IncrementAtMaxWraps();
  }

  /** RETOURNE and ANNULEE are terminal: neither operation applies to a
      reservation that is no longer EN_COURS, whatever the rest of the store. */
  lemma ClosedIsTerminal(s: Store, id: ReservationId)
    requires id < |s.reservations| && s.reservations[id].status != EnCours
    ensures ReturnBook(s, id) == Err(NotInProgress)
    ensures CancelReservation(s, id) == Err(NotInProgress)
  {
  }

  /** A reservation that has been returned or cancelled can be neither
      returned nor cancelled again. */
  lemma CloseTwiceFails(s: Store, id: ReservationId, first: Status, second: Status)
    requires first != EnCours && second != EnCours
    requires Close(s, id, first).Ok?
    ensures Close(Close(s, id, first).value, id, second) == Err(NotInProgress)
  {
  }

  // ---------------------------------------------------------------------
  // The legacy path
  // ---------------------------------------------------------------------

  /** `createReservation(userEmail, bookId)`, exactly as the source has it:
      after the user and book lookups it refuses a second EN_COURS
      reservation of the same user on the book, then any EN_COURS
      reservation on the book at all, and appends a new EN_COURS
      reservation. It neither reads nor writes the stock counter and does
      not apply the three-reservation cap. */
  function CreateReservation(s: Store, email: Email, b: BookId): (r: Result<Store, ReservationError>)
    ensures email !in s.accounts ==> r == Err(UserNotFound)
    ensures email in s.accounts && b !in s.books ==> r == Err(BookNotFound)
    ensures (email in s.accounts && b in s.books
             && CountActive(s.reservations, OfUserOnBook(s.accounts[email], b)) > 0) ==> r == Err(AlreadyReserved)
    ensures (email in s.accounts && b in s.books
             && CountActive(s.reservations, OfUserOnBook(s.accounts[email], b)) == 0
             && CountActive(s.reservations, OnBook(b)) > 0) ==> r == Err(BookTaken)
    ensures r.Ok? <==> email in s.accounts && b in s.books && CountActive(s.reservations, OnBook(b)) == 0
    ensures r.Ok? ==>
              && r.value.accounts == s.accounts
              && r.value.books == s.books
              && r.value.reservations == s.reservations + [Reservation(s.accounts[email], b, EnCours)]
  {
    if email !in s.accounts then Err(UserNotFound)
    else if b !in s.books then Err(BookNotFound)
    else
      var u := s.accounts[email];
      CountActivePairBounded(s.reservations, u, b);
      if CountActive(s.reservations, OfUserOnBook(u, b)) > 0 then Err(AlreadyReserved)
      else if CountActive(s.reservations, OnBook(b)) > 0 then Err(BookTaken)
      else Ok(s.(reservations := s.reservations + [Reservation(u, b, EnCours)]))
  }

  /** `isBookAvailable(bookId)`: unknown books fail; otherwise the answer is
      whether no reservation on the book is EN_COURS. The stock counter is
      not consulted. */
  function IsBookAvailable(s: Store, b: BookId): (r: Result<bool, ReservationError>)
    ensures b !in s.books <==> r == Err(BookNotFound)
    ensures r.Ok? <==> b in s.books
    ensures r.Ok? ==>
              (r.value <==> forall i :: (0 <= i < |s.reservations| && s.reservations[i].book == b)
                                          ==> s.reservations[i].status != EnCours)
  {
    if b !in s.books then Err(BookNotFound)
    else Ok(CountActive(s.reservations, OnBook(b)) == 0)
  }

  /** The legacy path succeeds exactly when the book is known to be
      available, so its "same user" gate is subsumed by the "any user" one. */
  lemma CreateReservationMeansAvailable(s: Store, email: Email, b: BookId)
    requires email in s.accounts
    ensures CreateReservation(s, email, b).Ok? <==> IsBookAvailable(s, b) == Ok(true)
  {
  }

  // ---------------------------------------------------------------------
  // Read-only queries
  // ---------------------------------------------------------------------

  /** The repository finders behind the list queries. */
  datatype Query = ByUser(user: UserId) | ByUserActive(user: UserId) | ByBook(book: BookId) | Everything

  predicate Lists(q: Query, r: Reservation) {
    match q
    case ByUser(u) => r.user == u
    case ByUserActive(u) => r.user == u && r.status == EnCours
    case ByBook(b) => r.book == b
    case Everything => true
  }

  /** The identifiers, from `from` on, of the reservations `q` selects, in
      increasing order. */
  function IdsFrom(rs: seq<Reservation>, q: Query, from: nat): (ids: seq<ReservationId>)
    requires from <= |rs|
    decreases |rs| - from
    ensures forall k :: 0 <= k < |ids| ==> from <= ids[k] < |rs| && Lists(q, rs[ids[k]])
    ensures forall i :: from <= i < |rs| && Lists(q, rs[i]) ==> i in ids
    ensures forall k, l :: 0 <= k < l < |ids| ==> ids[k] < ids[l]
  {
    if from == |rs| then []
    else if Lists(q, rs[from]) then [from] + IdsFrom(rs, q, from + 1)
    else IdsFrom(rs, q, from + 1)
  }

  /** The identifiers of exactly the reservations `q` selects, each once and
      in increasing order. */
  function Select(rs: seq<Reservation>, q: Query): (ids: seq<ReservationId>)
    ensures forall i: nat :: i in ids <==> i < |rs| && Lists(q, rs[i])
    ensures forall k, l :: 0 <= k < l < |ids| ==> ids[k] < ids[l]
  {
    IdsFrom(rs, q, 0)
  }

  /** `getUserReservations` and `getUserActiveReservations`: unknown users fail. */
  function UserReservations(s: Store, email: Email, activeOnly: bool): (r: Result<seq<ReservationId>, ReservationError>)
    ensures email !in s.accounts <==> r == Err(UserNotFound)
    ensures r.Ok? <==> email in s.accounts
    ensures r.Ok? ==> forall i: nat :: i in r.value <==>
              i < |s.reservations| && s.reservations[i].user == s.accounts[email]
              && (activeOnly ==> s.reservations[i].status == EnCours)
    ensures r.Ok? && activeOnly ==> |r.value| == CountActive(s.reservations, OfUser(s.accounts[email]))
  {
    if email !in s.accounts then Err(UserNotFound)
    else
      var u := s.accounts[email];
      var ids := Select(s.reservations, if activeOnly then ByUserActive(u) else ByUser(u));
      if activeOnly then SelectActiveSize(s.reservations, u); Ok(ids) else Ok(ids)
  }

  /** The active list of a user is as long as the count the cap is checked
      against, so the query and the three-reservation gate agree. */
  lemma {:induction false} SelectActiveSize(rs: seq<Reservation>, u: UserId)
    ensures |Select(rs, ByUserActive(u))| == CountActive(rs, OfUser(u))
  {
    SelectSizeFrom(rs, u, 0);
  }

  /** The suffix form of `SelectActiveSize`, counted from position `from`. */
  lemma {:induction false} SelectSizeFrom(rs: seq<Reservation>, u: UserId, from: nat)
    requires from <= |rs|
    decreases |rs| - from
    ensures |IdsFrom(rs, ByUserActive(u), from)| + CountActive(rs[..from], OfUser(u)) == CountActive(rs, OfUser(u))
  {
    if from == |rs| {
      assert rs[..from] == rs;
    } else {
      SelectSizeFrom(rs, u, from + 1);
      assert rs[..from + 1] == rs[..from] + [rs[from]];
      CountActiveAppend(rs[..from], rs[from], OfUser(u));
    }
  }

  /** `getBookReservations`: unknown books fail; otherwise every reservation
      ever made on the book, whatever its status. */
  function BookReservations(s: Store, b: BookId): (r: Result<seq<ReservationId>, ReservationError>)
    ensures b !in s.books <==> r == Err(BookNotFound)
    ensures r.Ok? <==> b in s.books
    ensures r.Ok? ==> forall i: nat :: i in r.value <==> i < |s.reservations| && s.reservations[i].book == b
  {
    if b !in s.books then Err(BookNotFound)
    else Ok(Select(s.reservations, ByBook(b)))
  }

  /** `getAllReservations`: every identifier in the store, in order. */
  function AllReservations(s: Store): (r: seq<ReservationId>)
    ensures |r| == |s.reservations|
    ensures forall k :: 0 <= k < |r| ==> r[k] == k
  {
    AllIdsAreInOrder(s.reservations);
    Select(s.reservations, Everything)
  }

  /** Selecting everything yields `0, 1, ..., |rs| - 1`. */
  lemma {:induction false} AllIdsAreInOrder(rs: seq<Reservation>)
    ensures |Select(rs, Everything)| == |rs|
    ensures forall k :: 0 <= k < |rs| ==> Select(rs, Everything)[k] == k
  {
    AllIdsFrom(rs, 0);
  }

  lemma {:induction false} AllIdsFrom(rs: seq<Reservation>, from: nat)
    requires from <= |rs|
    decreases |rs| - from
    ensures IdsFrom(rs, Everything, from) == Range(from, |rs|)
  {
    if from < |rs| {
      AllIdsFrom(rs, from + 1);
      assert Lists(Everything, rs[from]);
    }
  }

  /** The integers from `lo` up to, not including, `hi`. */
  function Range(lo: nat, hi: nat): (r: seq<nat>)
    requires lo <= hi
    ensures |r| == hi - lo
    ensures forall k :: 0 <= k < |r| ==> r[k] == lo + k
    decreases hi - lo
  {
    if lo == hi then [] else [lo] + Range(lo + 1, hi)
  }
}

=== FILE: results.dfy ===
/** Optional values and failure-carrying results shared by both services.
    A service call that throws in the source returns `Err` here; a call that
    completes returns `Ok` with the new state or the answer. */
module Results {

  datatype Option<+T> = None | Some(value: T)

  datatype Result<+T, +E> = Ok(value: T) | Err(error: E)
}

=== FILE: users.dfy ===
/** The user service: registration, activation, authentication, password
    change and renewal, expiry, the security question, profile updates and
    unsubscription, over an in-memory user directory and password history. */
module Users {
  import opened Results
  import opened Credentials
  import opened PasswordHistory
  import opened Identifiers

  /** A point on the service clock, in seconds. */
  type Instant = nat

  /** Twelve weeks (84 days), in seconds: the age past which a password has
      expired. */
  const PasswordMaxAge: nat := 12 * 7 * 24 * 60 * 60

  /** The longest security answer registration accepts, in characters. */
  const MaxAnswerLength: nat := 32

  /** INACTIF until activation, ACTIF afterwards. */
  datatype UserStatus = Inactif | Actif

  /** A stored account. Password and security answer are kept only as
      digests; a missing question, answer or timestamp is a null column. */
  datatype User = User(
    id: UserId,
    email: Email,
    password: Digest,
    firstname: string,
    lastname: string,
    status: UserStatus,
    createdAt: Instant,
    securityQuestion: Option<string>,
    securityAnswer: Option<Digest>,
    passwordLastUpdated: Option<Instant>)

  /** The user store, each user's password history (newest first), and the
      next identifier the store will hand out. */
  datatype Directory = Directory(
    users: seq<User>,
    history: map<UserId, seq<Digest>>,
    nextId: UserId)

  /** The fields a registration request carries; a field missing from the
      request is `None`. */
  datatype Candidate = Candidate(
    email: Email,
    password: Option<string>,
    firstname: string,
    lastname: string,
    securityQuestion: Option<string>,
    securityAnswer: Option<string>)

  /** The notifications the service attempts. */
  datatype Mail =
    | ActivationMail(to: Email)
    | ActivationConfirmation(to: Email)
    | UnsubscribeConfirmation(to: Email)

  /** A state change together with the mail that actually went out. */
  datatype Effect = Effect(dir: Directory, sent: seq<Mail>)

  datatype UserError =
    | EmailTaken          // "Un compte avec cet email existe déjà"
    | QuestionRequired    // "Une question de sécurité est requise"
    | AnswerRequired      // "Une réponse à la question de sécurité est requise"
    | AnswerTooLong       // "... ne doit pas dépasser 32 caractères"
    | AccountNotFound     // "Aucun compte trouvé avec cet email" / "... cet ID"
    | AlreadyActive       // "Ce compte est déjà actif"
    | BadCredentials      // "Email ou mot de passe incorrect", for both causes
    | InactiveAccount     // "Votre compte n'est pas encore activé ..."
    | PasswordExpired     // "Votre mot de passe a expiré ..."
    | WrongOldPassword    // "L'ancien mot de passe est incorrect"
    | EmptyPassword       // "Le nouveau mot de passe ne peut pas être vide"
    | PasswordReused      // "Vous ne pouvez pas réutiliser l'un de vos 5 derniers ..."
    | NoSecurityQuestion  // "Aucune question de sécurité n'est définie ..."
    | NoSecurityAnswer    // "Aucune réponse de sécurité n'est définie ..."
    | NullPassword        // the password encoder refuses a null password
    | NullAnswer          // `toLowerCase` called on a null answer

  // ---------------------------------------------------------------------
  // Lookups
  // ---------------------------------------------------------------------

  /** How a call names its user: `findByEmail` or `findById`. */
  datatype Key = ByEmail(email: Email) | ById(id: UserId)

  predicate HasKey(u: User, k: Key) {
    match k
    case ByEmail(e) => u.email == e
    case ById(n) => u.id == n
  }

  /** The position of the first user `k` names, if any. */
  function Find(users: seq<User>, k: Key): (r: Option<nat>)
    ensures r.Some? ==> r.value < |users| && HasKey(users[r.value], k)
    ensures r.Some? ==> forall j :: 0 <= j < r.value ==> !HasKey(users[j], k)
    ensures r.None? <==> forall j :: 0 <= j < |users| ==> !HasKey(users[j], k)
  {
    if users == [] then None
    else if HasKey(users[0], k) then Some(0)
    else
      match Find(users[1..], k)
      case None => None
      case Some(i) => Some(i + 1)
  }

  /** The history entries of user `id`, newest first; none if never renewed. */
  function History(d: Directory, id: UserId): seq<Digest> {
    if id in d.history then d.history[id] else []
  }

  /** `isPasswordExpired` on a loaded user: a missing timestamp counts as
      expired; otherwise the password expires strictly after twelve weeks. */
  predicate Expired(u: User, now: Instant) {
    u.passwordLastUpdated.None? || now > u.passwordLastUpdated.value + PasswordMaxAge
  }

  /** A security question counts as given when present and non-empty. */
  predicate Given(s: Option<string>) {
    s.Some? && s.value != ""
  }

  // ---------------------------------------------------------------------
  // Registration and activation
  // ---------------------------------------------------------------------

  /** The account a successful registration stores. */
  function NewUser(d: Directory, c: Candidate, now: Instant): User
    requires c.password.Some? && c.securityAnswer.Some?
  {
    User(d.nextId, c.email, Hash(c.password.value), c.firstname, c.lastname, Inactif, now,
         c.securityQuestion, Some(Hash(Normalize(c.securityAnswer.value))), Some(now))
  }

  /** `registerUser`. Checks, in order: the email is free, a question is
      given, an answer is given, the answer has at most 32 characters; a
      request without a password then fails in the password encoder, before
      anything is saved. The stored account is INACTIF, keeps digests of the password and of the
      normalised answer, and is stamped `now`. The activation mail goes out
      only when `delivered`; its failure does not undo the registration. */
  function RegisterUser(d: Directory, c: Candidate, now: Instant, delivered: bool): (r: Result<Effect, UserError>)
    ensures Find(d.users, ByEmail(c.email)).Some? ==> r == Err(EmailTaken)
    ensures (Find(d.users, ByEmail(c.email)).None? && !Given(c.securityQuestion)) ==> r == Err(QuestionRequired)
    ensures (Find(d.users, ByEmail(c.email)).None? && Given(c.securityQuestion) && !Given(c.securityAnswer))
            ==> r == Err(AnswerRequired)
    ensures (Find(d.users, ByEmail(c.email)).None? && Given(c.securityQuestion) && Given(c.securityAnswer)
             && |c.securityAnswer.value| > MaxAnswerLength) ==> r == Err(AnswerTooLong)
    ensures (Find(d.users, ByEmail(c.email)).None? && Given(c.securityQuestion) && Given(c.securityAnswer)
             && |c.securityAnswer.value| <= MaxAnswerLength && c.password.None?) ==> r == Err(NullPassword)
    ensures r.Ok? <==>
              && Find(d.users, ByEmail(c.email)).None?
              && Given(c.securityQuestion) && Given(c.securityAnswer)
              && |c.securityAnswer.value| <= MaxAnswerLength
              && c.password.Some?
    ensures r.Ok? ==>
              var t := r.value.dir;
              && |t.users| == |d.users| + 1
              && t.users[..|d.users|] == d.users
              && t.history == d.history
              && t.nextId > d.nextId
              && t.users[|d.users|].id == d.nextId
              && t.users[|d.users|].email == c.email
              && t.users[|d.users|].status == Inactif
              && Matches(c.password.value, t.users[|d.users|].password)
              && t.users[|d.users|].firstname == c.firstname
              && t.users[|d.users|].lastname == c.lastname
              && t.users[|d.users|].createdAt == now
              && t.users[|d.users|].securityQuestion == c.securityQuestion
              && t.users[|d.users|].securityAnswer == Some(Hash(Normalize(c.securityAnswer.value)))
              && t.users[|d.users|].passwordLastUpdated == Some(now)
    ensures r.Ok? ==> r.value.sent == (if delivered then [ActivationMail(c.email)] else [])
  {
    if Find(d.users, ByEmail(c.email)).Some? then Err(EmailTaken)
    else if !Given(c.securityQuestion) then Err(QuestionRequired)
    else if !Given(c.securityAnswer) then Err(AnswerRequired)
    else if |c.securityAnswer.value| > MaxAnswerLength then Err(AnswerTooLong)
    else if c.password.None? then Err(NullPassword)
    else
      var t := d.(users := d.users + [NewUser(d, c, now)], nextId := d.nextId + 1);
      assert t.users[..|d.users|] == d.users;
      Ok(Effect(t, if delivered then [ActivationMail(c.email)] else []))
  }

  /** `activateUser`: an unknown email fails, an ACTIF account fails (no
      silent idempotence); otherwise the status becomes ACTIF and nothing
      else changes. The confirmation mail is best-effort. */
  function ActivateUser(d: Directory, email: Email, delivered: bool): (r: Result<Effect, UserError>)
    ensures Find(d.users, ByEmail(email)).None? <==> r == Err(AccountNotFound)
    ensures r.Ok? <==> Find(d.users, ByEmail(email)).Some? && d.users[Find(d.users, ByEmail(email)).value].status == Inactif
    ensures (Find(d.users, ByEmail(email)).Some? && d.users[Find(d.users, ByEmail(email)).value].status == Actif)
            ==> r == Err(AlreadyActive)
    ensures r.Ok? ==>
              var i := Find(d.users, ByEmail(email)).value;
              && r.value.dir.history == d.history
              && r.value.dir.nextId == d.nextId
              && |r.value.dir.users| == |d.users|
              && r.value.dir.users[i] == d.users[i].(status := Actif)
              && (forall j :: 0 <= j < |d.users| && j != i ==> r.value.dir.users[j] == d.users[j])
              && r.value.sent == (if delivered then [ActivationConfirmation(email)] else [])
  {
    match Find(d.users, ByEmail(email))
    case None => Err(AccountNotFound)
    case Some(i) =>
      var u := d.users[i];
      if u.status == Actif then Err(AlreadyActive)
      else
        var t := d.(users := d.users[i := u.(status := Actif)]);
        assert Find(d.users, ByEmail(email)) == Some(i);
        assert u.status == Inactif;
        Ok(Effect(t, if delivered then [ActivationConfirmation(email)] else []))
  }

  // ---------------------------------------------------------------------
  // Authentication and expiry
  // ---------------------------------------------------------------------

  /** `authenticateUser`: true exactly when the account exists, the password
      verifies, the account is ACTIF and the password has not expired; never
      false. An unknown email and a wrong password fail alike; an inactive
      account and an expired password fail distinctly, in that order. */
  function AuthenticateUser(d: Directory, email: Email, password: string, now: Instant): (r: Result<bool, UserError>)
    ensures r.Ok? ==> r.value
    ensures r.Ok? <==>
              && Find(d.users, ByEmail(email)).Some?
              && Matches(password, d.users[Find(d.users, ByEmail(email)).value].password)
              && d.users[Find(d.users, ByEmail(email)).value].status == Actif
              && !Expired(d.users[Find(d.users, ByEmail(email)).value], now)
    ensures Find(d.users, ByEmail(email)).None? ==> r == Err(BadCredentials)
    ensures (Find(d.users, ByEmail(email)).Some?
             && !Matches(password, d.users[Find(d.users, ByEmail(email)).value].password)) ==> r == Err(BadCredentials)
    ensures (Find(d.users, ByEmail(email)).Some?
             && Matches(password, d.users[Find(d.users, ByEmail(email)).value].password)
             && d.users[Find(d.users, ByEmail(email)).value].status == Inactif) ==> r == Err(InactiveAccount)
    ensures (Find(d.users, ByEmail(email)).Some?
             && Matches(password, d.users[Find(d.users, ByEmail(email)).value].password)
             && d.users[Find(d.users, ByEmail(email)).value].status == Actif
             && Expired(d.users[Find(d.users, ByEmail(email)).value], now)) ==> r == Err(PasswordExpired)
  {
    match Find(d.users, ByEmail(email))
    case None => Err(BadCredentials)
    case Some(i) =>
      var u := d.users[i];
      assert Find(d.users, ByEmail(email)) == Some(i);
      if !Matches(password, u.password) then Err(BadCredentials)
      else if u.status == Inactif then Err(InactiveAccount)
      else
        assert u.status == Actif;
        if Expired(u, now) then Err(PasswordExpired) else Ok(true)
  }

  /** `isPasswordExpired`: unknown emails fail. */
  function IsPasswordExpired(d: Directory, email: Email, now: Instant): (r: Result<bool, UserError>)
    ensures Find(d.users, ByEmail(email)).None? <==> r == Err(AccountNotFound)
    ensures r.Ok? <==> Find(d.users, ByEmail(email)).Some?
    ensures r.Ok? ==>
              var plu := d.users[Find(d.users, ByEmail(email)).value].passwordLastUpdated;
              (r.value <==> plu.None? || now - plu.value > PasswordMaxAge)
  {
    match Find(d.users, ByEmail(email))
    case None => Err(AccountNotFound)
    case Some(i) => Ok(Expired(d.users[i], now))
  }

  /** The expiry boundary: a password is still valid exactly twelve weeks
      after it was set, and expired one second later. */
  lemma ExpiryBoundary(u: User, changed: Instant)
    requires u.passwordLastUpdated == Some(changed)
    ensures !Expired(u, changed + PasswordMaxAge)
    ensures Expired(u, changed + PasswordMaxAge + 1)
    ensures forall now: Instant :: Expired(u, now) <==> now > changed + PasswordMaxAge
  {
  }

  // ---------------------------------------------------------------------
  // Profile and plain password changes
  // ---------------------------------------------------------------------

  /** `updateProfile` and `updateProfileById`: the user must exist; an empty
      first or last name keeps the stored one. Nothing else changes. */
  function UpdateProfile(d: Directory, k: Key, firstname: string, lastname: string): (r: Result<Directory, UserError>)
    ensures Find(d.users, k).None? <==> r == Err(AccountNotFound)
    ensures r.Ok? <==> Find(d.users, k).Some?
    ensures r.Ok? ==>
              var i := Find(d.users, k).value;
              var u := d.users[i];
              && r.value.history == d.history
              && r.value.nextId == d.nextId
              && |r.value.users| == |d.users|
              && (forall j :: 0 <= j < |d.users| && j != i ==> r.value.users[j] == d.users[j])
              && (firstname == [] ==> r.value.users[i].firstname == u.firstname)
              && (firstname != [] ==> r.value.users[i].firstname == firstname)
              && (lastname == [] ==> r.value.users[i].lastname == u.lastname)
              && (lastname != [] ==> r.value.users[i].lastname == lastname)
              && r.value.users[i] == u.(firstname := r.value.users[i].firstname, lastname := r.value.users[i].lastname)
  {
    match Find(d.users, k)
    case None => Err(AccountNotFound)
    case Some(i) =>
      var u := d.users[i];
      var u1 := if firstname != [] then u.(firstname := firstname) else u;
      var u2 := if lastname != [] then u1.(lastname := lastname) else u1;
      Ok(d.(users := d.users[i := u2]))
  }

  /** `updatePassword` and `updatePasswordById`: the user must exist, the old
      password must verify and the new one must be non-empty. Only the
      password digest changes: no reuse check, the history and the expiry
      clock are left alone. */
  function UpdatePassword(d: Directory, k: Key, oldPassword: string, newPassword: string): (r: Result<Directory, UserError>)
    ensures Find(d.users, k).None? ==> r == Err(AccountNotFound)
    ensures (Find(d.users, k).Some? && !Matches(oldPassword, d.users[Find(d.users, k).value].password))
            ==> r == Err(WrongOldPassword)
    ensures (Find(d.users, k).Some? && Matches(oldPassword, d.users[Find(d.users, k).value].password)
             && newPassword == []) ==> r == Err(EmptyPassword)
    ensures r.Ok? <==>
              && Find(d.users, k).Some?
              && Matches(oldPassword, d.users[Find(d.users, k).value].password)
              && newPassword != []
    ensures r.Ok? ==>
              var i := Find(d.users, k).value;
              && r.value.history == d.history
              && r.value.nextId == d.nextId
              && |r.value.users| == |d.users|
              && (forall j :: 0 <= j < |d.users| && j != i ==> r.value.users[j] == d.users[j])
              && Matches(newPassword, r.value.users[i].password)
              && r.value.users[i] == d.users[i].(password := r.value.users[i].password)
  {
    match Find(d.users, k)
    case None => Err(AccountNotFound)
    case Some(i) =>
      var u := d.users[i];
      if !Matches(oldPassword, u.password) then Err(WrongOldPassword)
      else if newPassword == [] then Err(EmptyPassword)
      else Ok(d.(users := d.users[i := u.(password := Hash(newPassword))]))
  }

  // ---------------------------------------------------------------------
  // Renewal
  // ---------------------------------------------------------------------

  /** `renewPassword`, as the source has it. Checks, in order: the user
      exists, the old password verifies, the new one is non-empty, the new
      one verifies against none of the five newest history entries (the
      current password is not consulted). On success the current digest is
      saved as the newest history entry, the history is pruned to five, the
      password becomes the new one and the expiry clock restarts at `now`. */
  function RenewPassword(d: Directory, email: Email, oldPassword: string, newPassword: string, now: Instant)
    : (r: Result<Directory, UserError>)
    ensures Find(d.users, ByEmail(email)).None? ==> r == Err(AccountNotFound)
    ensures (Find(d.users, ByEmail(email)).Some?
             && !Matches(oldPassword, d.users[Find(d.users, ByEmail(email)).value].password))
            ==> r == Err(WrongOldPassword)
    ensures (Find(d.users, ByEmail(email)).Some?
             && Matches(oldPassword, d.users[Find(d.users, ByEmail(email)).value].password)
             && newPassword == []) ==> r == Err(EmptyPassword)
    ensures (Find(d.users, ByEmail(email)).Some?
             && Matches(oldPassword, d.users[Find(d.users, ByEmail(email)).value].password)
             && newPassword != []
             && Reused(History(d, d.users[Find(d.users, ByEmail(email)).value].id), newPassword))
            ==> r == Err(PasswordReused)
    ensures r.Ok? <==>
              && Find(d.users, ByEmail(email)).Some?
              && Matches(oldPassword, d.users[Find(d.users, ByEmail(email)).value].password)
              && newPassword != []
              && !Reused(History(d, d.users[Find(d.users, ByEmail(email)).value].id), newPassword)
    ensures r.Ok? ==>
              var i := Find(d.users, ByEmail(email)).value;
              var u := d.users[i];
              var h := History(r.value, u.id);
              && r.value.nextId == d.nextId
              && |r.value.users| == |d.users|
              && (forall j :: 0 <= j < |d.users| && j != i ==> r.value.users[j] == d.users[j])
              && Matches(newPassword, r.value.users[i].password)
              && r.value.users[i].passwordLastUpdated == Some(now)
              && r.value.users[i] == u.(password := r.value.users[i].password, passwordLastUpdated := Some(now))
              && h == Push(History(d, u.id), u.password)
              && 0 < |h| <= HistoryLimit
              && h[0] == u.password
              && |h| <= |History(d, u.id)| + 1
              && (forall k :: 0 < k < |h| ==> h[k] == History(d, u.id)[k - 1])
              && (forall other :: other != u.id ==> History(r.value, other) == History(d, other))
  {
    match Find(d.users, ByEmail(email))
    case None => Err(AccountNotFound)
    case Some(i) =>
      var u := d.users[i];
      if !Matches(oldPassword, u.password) then Err(WrongOldPassword)
      else if newPassword == [] then Err(EmptyPassword)
      else if Reused(History(d, u.id), newPassword) then Err(PasswordReused)
      else
        var renewed := u.(password := Hash(newPassword), passwordLastUpdated := Some(now));
        Ok(d.(users := d.users[i := renewed],
              history := d.history[u.id := Push(History(d, u.id), u.password)]))
  }

  /** Renewal with a reuse rule that also refuses the current password: the
      current password counts as one of the recent ones. */
  function RenewPasswordStrict(d: Directory, email: Email, oldPassword: string, newPassword: string, now: Instant)
    : (r: Result<Directory, UserError>)
    ensures r.Ok? ==> r == RenewPassword(d, email, oldPassword, newPassword, now)
    ensures r.Ok? ==>
              var i := Find(d.users, ByEmail(email)).value;
              && r.value.users[i].password != d.users[i].password
              && !Reused(History(d, d.users[i].id), newPassword)
    ensures RenewPassword(d, email, oldPassword, newPassword, now).Err?
            ==> r == RenewPassword(d, email, oldPassword, newPassword, now)
    ensures (RenewPassword(d, email, oldPassword, newPassword, now).Ok?
             && !Matches(newPassword, d.users[Find(d.users, ByEmail(email)).value].password))
            ==> r == RenewPassword(d, email, oldPassword, newPassword, now)
    ensures (RenewPassword(d, email, oldPassword, newPassword, now).Ok?
             && Matches(newPassword, d.users[Find(d.users, ByEmail(email)).value].password))
            ==> r == Err(PasswordReused)
  {
    match Find(d.users, ByEmail(email))
    case None => Err(AccountNotFound)
    case Some(i) =>
      var u := d.users[i];
      if Matches(oldPassword, u.password) && newPassword != [] && Matches(newPassword, u.password)
         && !Reused(History(d, u.id), newPassword)
      then Err(PasswordReused)
      else RenewPassword(d, email, oldPassword, newPassword, now)
  }

  // ---------------------------------------------------------------------
  // Security question
  // ---------------------------------------------------------------------

  /** `getSecurityQuestion`: unknown emails fail, and so does an account
      whose question is missing or empty. */
  function GetSecurityQuestion(d: Directory, email: Email): (r: Result<string, UserError>)
    ensures Find(d.users, ByEmail(email)).None? <==> r == Err(AccountNotFound)
    ensures r.Ok? <==>
              Find(d.users, ByEmail(email)).Some? && Given(d.users[Find(d.users, ByEmail(email)).value].securityQuestion)
    ensures r.Ok? ==>
              && d.users[Find(d.users, ByEmail(email)).value].securityQuestion == Some(r.value)
              && r.value != []
    ensures (Find(d.users, ByEmail(email)).Some?
             && !Given(d.users[Find(d.users, ByEmail(email)).value].securityQuestion)) ==> r == Err(NoSecurityQuestion)
  {
    match Find(d.users, ByEmail(email))
    case None => Err(AccountNotFound)
    case Some(i) =>
      var q := d.users[i].securityQuestion;
      if !Given(q) then Err(NoSecurityQuestion) else Ok(q.value)
  }

  /** `verifySecurityAnswer`: unknown emails fail, and so does an account
      without a stored answer, and then a missing attempt fails when it is
      lower-cased; otherwise the normalised attempt is verified against the
      stored digest. Independent of password and status. */
  function VerifySecurityAnswer(d: Directory, email: Email, answer: Option<string>): (r: Result<bool, UserError>)
    ensures Find(d.users, ByEmail(email)).None? <==> r == Err(AccountNotFound)
    ensures (Find(d.users, ByEmail(email)).Some?
             && d.users[Find(d.users, ByEmail(email)).value].securityAnswer.None?) <==> r == Err(NoSecurityAnswer)
    ensures (Find(d.users, ByEmail(email)).Some?
             && d.users[Find(d.users, ByEmail(email)).value].securityAnswer.Some?
             && answer.None?) <==> r == Err(NullAnswer)
    ensures r.Ok? <==>
              && Find(d.users, ByEmail(email)).Some?
              && d.users[Find(d.users, ByEmail(email)).value].securityAnswer.Some?
              && answer.Some?
    ensures r.Ok? ==>
              (r.value <==> d.users[Find(d.users, ByEmail(email)).value].securityAnswer == Some(Hash(Normalize(answer.value))))
  {
    match Find(d.users, ByEmail(email))
    case None => Err(AccountNotFound)
    case Some(i) =>
      match d.users[i].securityAnswer
      case None => Err(NoSecurityAnswer)
      case Some(stored) =>
        if answer.None? then Err(NullAnswer) else Ok(Matches(Normalize(answer.value), stored))
  }

  // ---------------------------------------------------------------------
  // Unsubscription
  // ---------------------------------------------------------------------

  /** `unsubscribeUser`: unknown emails fail; otherwise the confirmation
      mail is attempted first (best-effort) and the account is deleted. The
      password history is not cleaned up. */
  function UnsubscribeUser(d: Directory, email: Email, delivered: bool): (r: Result<Effect, UserError>)
    ensures Find(d.users, ByEmail(email)).None? <==> r == Err(AccountNotFound)
    ensures r.Ok? <==> Find(d.users, ByEmail(email)).Some?
    ensures r.Ok? ==>
              var i := Find(d.users, ByEmail(email)).value;
              && r.value.dir.users == d.users[..i] + d.users[i + 1..]
              && |r.value.dir.users| == |d.users| - 1
              && r.value.dir.history == d.history
              && r.value.dir.nextId == d.nextId
              && r.value.sent == (if delivered then [UnsubscribeConfirmation(email)] else [])
  {
    match Find(d.users, ByEmail(email))
    case None => Err(AccountNotFound)
    case Some(i) =>
      Ok(Effect(d.(users := d.users[..i] + d.users[i + 1..]),
                if delivered then [UnsubscribeConfirmation(email)] else []))
  }
}
